=== FILE: README.md ===
# Spring Cloud Deployer for Nomad: a Dafny model

This project models the core of the Spring Cloud Deployer SPI implementation for HashiCorp Nomad.
- The two app deployers (Docker and Maven, each optionally with one task group per instance index) turn an `AppDeploymentRequest` into a Nomad service job. They register it, deregister it, and report its status from its allocations.
- The two task launchers turn a request into a single-group batch job. They launch it, cancel it, and report the state of its first allocation.

Everything is a pure function over immutable datatypes:

| file | module | what it holds |
|---|---|---|
| `results.dfy` | `Results` | `Option`, `Result` with the errors the deployers throw, map lookups, `AllOk` (a loop stopping at the first exception) |
| `java_strings.dfy` | `JavaStrings` | the Java and Spring string operations the deployers rely on: `split`, `replace`, `replaceAll` of one character, `toUpperCase`, `equalsIgnoreCase`, `Integer.parseInt`/`toString`, `Boolean.parseBoolean`, `commaDelimitedListToSet` |
| `requests.dfy` | `Requests` | the request, the deployer configuration, the property keys and placeholders, and `Externals` (results of helpers outside the model) |
| `nomad_model.dfy` | `Nomad` | the Nomad job model: job, task group, task, resources, constraint, artifact |
| `identity.dfy` | `Identity` | deployment id, task id, tags, Fabio URL prefix |
| `resolution.dfy` | `Resolution` | which value wins among request properties and deployer defaults (cpu, memory, count, port, priority, ephemeral disk) |
| `key_value_lists.dfy` | `KeyValueLists` | the `KEY=VAL,...` metadata and environment-variable lists |
| `command_lines.dfy` | `CommandLines` | command-line arguments, and the argument-to-map conversion behind the Maven app's `SPRING_APPLICATION_JSON` |
| `entry_points.dfy` | `EntryPoints` | the exec / boot / shell entry-point switch of the Docker tasks |
| `tasks.dfy` | `Tasks` | the four `buildTask` implementations and `replaceServerPortWithPort` |
| `jobs.dfy` | `Jobs` | the job header (`buildJobSpec`) and task-group shell (`buildTaskGroup`) |
| `partitioning.dfy` | `Partitioning` | `buildTaskGroups`: single group, indexed groups, launcher group |
| `scheduler.dfy` | `Scheduler` | the Nomad job registry as the deployers see it |
| `task_status.dfy` | `TaskStatuses` | task launch states |
| `app_status.dfy` | `AppStatuses` | application instance states and the aggregate deployment state |
| `lifecycle.dfy` | `Lifecycle` | deploy, undeploy, launch, cancel, cleanup, destroy against the registry |

Every exception the Java code can throw on bad input is an `Err` value:
- `NumberFormatException` from `Integer.valueOf`/`parseInt` is `NumberFormat`.
- A failed `Assert.isTrue` on a list entry is `InvalidDeclaration`.
- The `IllegalStateException`s of deploy, undeploy and the boot entry point are `AlreadyDeployed`, `NotDeployed` and `BootStyleConflict`.
- The `toMap` failures are `MissingSeparator` and `DuplicateKey`.
- The `IOException` for a resource URI is `ResourceUnavailable`.
- The `ArithmeticException` of `Math.toIntExact` is `IntOverflow`.

Each function evaluates its inputs in the order the Java code does, so when several inputs are bad, the one Java reports first is the error returned.

Where the project's documented behaviour and its code differ, the model follows the code:
- The Docker app deployer reports a job as failed exactly when Nomad's job status is `dead`. It does not check for a terminal job without allocations. (`DockerNomadAppDeployer.java:111-136`)
- `replaceServerPortWithPort` is applied to the environment *values*, not to their keys (`MavenNomadAppDeployer.java:158`).
- The job's minimum-Java constraint is built as written: the version lands in the left target and the right target stays unset (`AbstractNomadDeployer.java:126-131`, see "## Findings"). The intended constraint is modelled and proved alongside, but no job carries it.
- The server-port argument is appended unless some argument equals the bare text `server.port`. A definition property `server.port` therefore produces two `server.port` arguments. The Maven app deployer's argument-to-map conversion then refuses them as a duplicate key.

## Model

| member | source | states |
|---|---|---|
| Identity.CreateDeploymentId | src/main/java/org/springframework/cloud/deployer/spi/nomad/AbstractNomadDeployer.java:83-94 | the id is `group-name` when a group is set and `name` otherwise, with every `.` turned into `-`; it never contains `.` |
| Identity.DeploymentIdOfPlainName | src/main/java/org/springframework/cloud/deployer/spi/nomad/AbstractNomadDeployer.java:87-93 | an ungrouped application whose name has no `.` is deployed under exactly its name |
| Identity.CreateTaskId | src/main/java/org/springframework/cloud/deployer/spi/nomad/docker/DockerNomadTaskLauncher.java:231-242 | a task id is the deployment id followed by `-` and the launch time in decimal, and contains no `.` |
| Identity.TaskIdsDistinct | src/main/java/org/springframework/cloud/deployer/spi/nomad/docker/DockerNomadTaskLauncher.java:240-241 | two launches of one request at different milliseconds get different task ids |
| Identity.CreateTags | src/main/java/org/springframework/cloud/deployer/spi/nomad/AbstractNomadDeployer.java:256-270 | tags are the app tag, the group tag only when a group is set, and last the deployment tag naming `id` or `id-index` |
| Identity.InstanceTagsDistinct | src/main/java/org/springframework/cloud/deployer/spi/nomad/AbstractNomadDeployer.java:265-267 | different instance indexes give different tag lists |
| Identity.BuildFabioUrlPrefix | src/main/java/org/springframework/cloud/deployer/spi/nomad/AbstractNomadDeployer.java:299-305 | the prefix is `urlprefix-` + host + `/`, host being the route-hostname property when set and the deployment id otherwise |
| Resolution.GetCpuResource | src/main/java/org/springframework/cloud/deployer/spi/nomad/AbstractNomadDeployer.java:327-334 | the generic cpu key takes precedence over the Nomad cpu key, which takes precedence over the deployer default; the winner is parsed as an int, failing on bad text |
| Resolution.CpuGenericKeyWins | src/main/java/org/springframework/cloud/deployer/spi/nomad/AbstractNomadDeployer.java:329-333 | requests agreeing on the generic cpu key get the same cpu whatever their Nomad key and deployer default |
| Resolution.CommonDeployerMemory | src/main/java/org/springframework/cloud/deployer/spi/nomad/AbstractNomadDeployer.java:359-366 | absent exactly when the generic memory key is absent; otherwise the converted mebibytes, a format error, or an overflow error outside the int range |
| Resolution.GetMemoryResource | src/main/java/org/springframework/cloud/deployer/spi/nomad/AbstractNomadDeployer.java:346-353 | the generic memory key (converted) takes precedence over the Nomad memory key, which takes precedence over the deployer default |
| Resolution.GenericMemoryInMebibytes | src/main/java/org/springframework/cloud/deployer/spi/nomad/AbstractNomadDeployer.java:348-349 | an in-range converted generic memory value is the memory requested, whatever the other keys say |
| Resolution.GetAppCount | src/main/java/org/springframework/cloud/deployer/spi/nomad/AbstractNomadDeployer.java:202-206 | the count is 1 without the count property and the property parsed otherwise |
| Resolution.ConfigureExternalPort | src/main/java/org/springframework/cloud/deployer/spi/nomad/AbstractNomadDeployer.java:307-315 | the port is 8080 unless the definition sets `server.port`, which is then parsed |
| Resolution.JobPriority | src/main/java/org/springframework/cloud/deployer/spi/nomad/AbstractNomadDeployer.java:115-117 | without the priority property the job gets exactly the deployer's priority (rendering and re-parsing loses nothing); with it, the property parsed |
| Resolution.EphemeralDiskSticky | src/main/java/org/springframework/cloud/deployer/spi/nomad/AbstractNomadDeployer.java:165-167 | the deployer default survives its round trip through text; a property is true exactly when it reads `true` in any letter case |
| Resolution.EphemeralDiskMigrate | src/main/java/org/springframework/cloud/deployer/spi/nomad/AbstractNomadDeployer.java:168-170 | the deployer's migrate default survives its round trip through text; a migrate property is true exactly when it reads `true` in any letter case |
| Resolution.EphemeralDiskSize | src/main/java/org/springframework/cloud/deployer/spi/nomad/AbstractNomadDeployer.java:171-173 | the deployer default size survives its round trip through text; a size property is parsed |
| JavaStrings.ParseIntToString | src/main/java/org/springframework/cloud/deployer/spi/nomad/AbstractNomadDeployer.java:115-117 | `Integer.valueOf(Integer.toString(n)) == n` for every int, which the priority and disk-size defaults rely on |
| JavaStrings.SplitAllJoin | src/main/java/org/springframework/cloud/deployer/spi/nomad/AbstractNomadDeployer.java:232 | splitting comma-joined comma-free segments gives the segments back |
| JavaStrings.CommaDelimitedListToSet | src/main/java/org/springframework/cloud/deployer/spi/nomad/maven/MavenNomadAppDeployer.java:135-138 | the JVM option list has no repeats, holds exactly the comma-separated segments in the order of their first occurrence (a `LinkedHashSet` copied into a list), and is empty for absent or empty text |
| JavaStrings.DedupFirstOccurrenceOrder | src/main/java/org/springframework/cloud/deployer/spi/nomad/maven/MavenNomadAppDeployer.java:135-138 | removing repeats keeps the elements in the order in which each first occurs in the input |
| KeyValueLists.ParseDeclaration | src/main/java/org/springframework/cloud/deployer/spi/nomad/AbstractNomadDeployer.java:236-238 | an entry is malformed exactly when it has no `=`; otherwise it is `key=value` with a `=`-free key (the value may hold `=`) |
| KeyValueLists.PutAll | src/main/java/org/springframework/cloud/deployer/spi/nomad/AbstractNomadDeployer.java:233-240 | the list succeeds exactly when every entry is well formed; a failure names a malformed entry |
| KeyValueLists.PutAllFirstError | src/main/java/org/springframework/cloud/deployer/spi/nomad/AbstractNomadDeployer.java:374-379 | the entry named by a failure is the first malformed one |
| KeyValueLists.PutAllKeys | src/main/java/org/springframework/cloud/deployer/spi/nomad/AbstractNomadDeployer.java:374-379 | the map's keys are exactly the entries' keys |
| KeyValueLists.PutAllLastWins | src/main/java/org/springframework/cloud/deployer/spi/nomad/AbstractNomadDeployer.java:233-240 | a repeated key holds the value of its last entry |
| KeyValueLists.ParseKeyValueListContents | src/main/java/org/springframework/cloud/deployer/spi/nomad/AbstractNomadDeployer.java:226-243 | a present `KEY=VAL,...` property fails exactly when an entry lacks `=`, reporting the first such entry; otherwise its keys are the entries' keys and each holds the value of the last entry declaring it |
| KeyValueLists.PutEntries | src/main/java/org/springframework/cloud/deployer/spi/nomad/AbstractNomadDeployer.java:232-240 | a split list yields a map exactly when every entry contains `=` |
| KeyValueLists.CreateMeta | src/main/java/org/springframework/cloud/deployer/spi/nomad/AbstractNomadDeployer.java:368-382 | no metadata property gives the empty map; otherwise the comma-split entries put into a map |
| KeyValueLists.GetAppEnvironmentVariables | src/main/java/org/springframework/cloud/deployer/spi/nomad/AbstractNomadDeployer.java:226-243 | no environment property gives the empty map; otherwise the comma-split entries put into a map |
| KeyValueLists.SingleEntry | src/main/java/org/springframework/cloud/deployer/spi/nomad/AbstractNomadDeployer.java:372-379 | `key=value` (value may contain `=`) is the one-entry map |
| KeyValueLists.TwoEntries | src/main/java/org/springframework/cloud/deployer/spi/nomad/AbstractNomadDeployer.java:372-379 | `k1=v1,k2=v2` holds both entries, the second winning on a shared key |
| KeyValueLists.TrailingCommaIgnored | src/main/java/org/springframework/cloud/deployer/spi/nomad/AbstractNomadDeployer.java:232 | a trailing comma adds no entry, as `split` drops trailing empty strings |
| KeyValueLists.EmptyTextFails | src/main/java/org/springframework/cloud/deployer/spi/nomad/AbstractNomadDeployer.java:232-238 | an empty list property is one empty entry, which fails the `=` check |
| KeyValueLists.MetaTestScenario | src/test/java/org/springframework/cloud/deployer/spi/nomad/AbstractNomadDeployerTest.java:38-49 | metadata `test=value` yields the map {test: value} |
| CommandLines.PropertyArguments | src/main/java/org/springframework/cloud/deployer/spi/nomad/docker/DockerNomadTaskLauncher.java:247-251 | one `--key=value` per definition property, in order |
| CommandLines.LauncherArguments | src/main/java/org/springframework/cloud/deployer/spi/nomad/docker/DockerNomadTaskLauncher.java:244-257 | the launcher command line is the property arguments followed by the request's own arguments |
| CommandLines.AppArguments | src/main/java/org/springframework/cloud/deployer/spi/nomad/AbstractNomadDeployer.java:208-224 | the app command line is the launcher one, plus `--server.port=${NOMAD_PORT_http}` unless an argument is exactly `server.port` |
| CommandLines.PortAppendedUnlessGiven | src/main/java/org/springframework/cloud/deployer/spi/nomad/AbstractNomadDeployer.java:218-220 | the port argument is left off exactly when the request's own arguments contain `server.port`, since no property argument can equal it |
| CommandLines.StripDashes | src/main/java/org/springframework/cloud/deployer/spi/nomad/maven/MavenNomadAppDeployer.java:199 | stripping leaves no `-` and keeps whether there is a `=` |
| CommandLines.SplitKeyValueShape | src/main/java/org/springframework/cloud/deployer/spi/nomad/maven/MavenNomadAppDeployer.java:200-204 | the key is the text before the first `=` and the value the text after the last `=`, both `=`-free |
| CommandLines.ParseArgumentShape | src/main/java/org/springframework/cloud/deployer/spi/nomad/maven/MavenNomadAppDeployer.java:198-204 | an argument without `=` cannot be split; otherwise key and value are the `=`-free ends of the dash-free argument |
| CommandLines.CollectEntries | src/main/java/org/springframework/cloud/deployer/spi/nomad/maven/MavenNomadAppDeployer.java:200-204 | a collected map holds each argument's key with its value, and no other key |
| CommandLines.CollectSucceeds | src/main/java/org/springframework/cloud/deployer/spi/nomad/maven/MavenNomadAppDeployer.java:200-204 | collecting succeeds exactly when every argument has a `=` and the keys are pairwise distinct |
| CommandLines.ArgumentsToMapCharacterised | src/main/java/org/springframework/cloud/deployer/spi/nomad/maven/MavenNomadAppDeployer.java:195-210 | the argument list becomes a map exactly when it is collectable, each argument's key then mapping to its value |
| CommandLines.PropertyArgumentParsed | src/main/java/org/springframework/cloud/deployer/spi/nomad/maven/MavenNomadAppDeployer.java:198-204 | `--key=value` with a plain key parses back to that key, with the value's dashes dropped |
| CommandLines.PropertyArgumentsRoundTrip | src/main/java/org/springframework/cloud/deployer/spi/nomad/maven/MavenNomadAppDeployer.java:195-210 | properties free of `-` and `=` survive the trip through the command line: the map is the definition's property map |
| CommandLines.SpringApplicationJsonMap | src/main/java/org/springframework/cloud/deployer/spi/nomad/maven/MavenNomadAppDeployer.java:195-210 | the Maven app's JSON map exists exactly when the app command line is collectable |
| CommandLines.DefinitionServerPortRejected | src/main/java/org/springframework/cloud/deployer/spi/nomad/AbstractNomadDeployer.java:218-219 | a definition setting `server.port` (without a bare `server.port` argument) makes the Maven app's conversion fail |
| CommandLines.ValueDashesDropped | src/main/java/org/springframework/cloud/deployer/spi/nomad/maven/MavenNomadAppDeployer.java:199 | dashes inside values are lost: `--name=a-b` becomes {name: ab} |
| EntryPoints.ShellVariableName | src/main/java/org/springframework/cloud/deployer/spi/nomad/docker/DockerNomadAppDeployer.java:208 | the shell name has the key's length; each `.` becomes `_`, each lower-case letter its upper-case form, and every other character is kept, so no `.` or lower-case letter remains |
| EntryPoints.ShellVariableNameIdempotent | src/main/java/org/springframework/cloud/deployer/spi/nomad/docker/DockerNomadAppDeployer.java:208 | a shell name is its own shell name |
| EntryPoints.ShellEnvironmentLastWins | src/main/java/org/springframework/cloud/deployer/spi/nomad/docker/DockerNomadAppDeployer.java:207-210 | each shell name holds the value of the last property spelled that way |
| EntryPoints.ShellEnvironmentKeepsOthers | src/main/java/org/springframework/cloud/deployer/spi/nomad/docker/DockerNomadAppDeployer.java:207-210 | a variable no property is spelled as keeps its earlier value or stays absent |
| EntryPoints.ApplyEntryPoint | src/main/java/org/springframework/cloud/deployer/spi/nomad/docker/DockerNomadAppDeployer.java:187-212 | boot fails exactly when the environment already has `SPRING_APPLICATION_JSON`; args are set exactly under exec; boot adds only the JSON of the definition and keeps every variable; shell applies the shell loop |
| EntryPoints.ShellStyleEnvironment | src/main/java/org/springframework/cloud/deployer/spi/nomad/docker/DockerNomadTaskLauncher.java:180-185 | under shell every property lands under its shell name (last spelling wins), and every other variable is kept |
| Tasks.Image | src/main/java/org/springframework/cloud/deployer/spi/nomad/docker/DockerNomadAppDeployer.java:157-162 | the image is the URI's scheme-specific part; an unobtainable URI fails |
| Tasks.JarPath | src/main/java/org/springframework/cloud/deployer/spi/nomad/maven/MavenNomadAppDeployer.java:133-134 | the jar path is the artifact destination, `/`, then the file name |
| Tasks.JvmOptions | src/main/java/org/springframework/cloud/deployer/spi/nomad/maven/MavenNomadAppDeployer.java:135-138 | the options come from the request's javaOpts when set and from the deployer otherwise |
| Tasks.TaskEnvironment | src/main/java/org/springframework/cloud/deployer/spi/nomad/docker/DockerNomadTaskLauncher.java:155-157 | the merged environment exists exactly when the request's environment list is well formed, and is then the request's variables overlaid by the deployer's: the keys of both, a deployer value winning on a shared key |
| Tasks.DockerAppTaskOutcome | src/main/java/org/springframework/cloud/deployer/spi/nomad/docker/DockerNomadAppDeployer.java:152-222 | the Docker app task fails exactly when the image, port, cpu, memory or boot-style check fails, the image and port first; otherwise it runs the image on the resolved resources with one dynamic port |
| Tasks.DockerAppTaskEnvironment | src/main/java/org/springframework/cloud/deployer/spi/nomad/docker/DockerNomadAppDeployer.java:175-205 | under exec the environment is exactly the GUID entry (bound to the allocation id) overlaid by the deployer variables, and under boot that map plus the definition's JSON, so the request's environment-variable property is never consulted; exec passes the app command line |
| Tasks.DockerAppTaskSetup | src/main/java/org/springframework/cloud/deployer/spi/nomad/docker/DockerNomadAppDeployer.java:175-205 | a built Docker app task takes its environment and arguments from the entry-point switch applied to the GUID entry overlaid by the deployer variables |
| Tasks.DockerLauncherTaskOutcome | src/main/java/org/springframework/cloud/deployer/spi/nomad/docker/DockerNomadTaskLauncher.java:139-196 | the Docker launcher task fails exactly when one of its inputs does; otherwise it has no network and no volumes, and under exec it passes the launcher command line with the merged environment |
| Tasks.ServerPortSpellings | src/main/java/org/springframework/cloud/deployer/spi/nomad/maven/MavenNomadAppDeployer.java:182-183 | the recognised values are exactly `server.port` in any letter case with the dot optionally written `_` |
| Tasks.ReplaceServerPortWithPortSpec | src/main/java/org/springframework/cloud/deployer/spi/nomad/maven/MavenNomadAppDeployer.java:180-188 | a value becomes the port placeholder exactly when it spells server.port or already is the placeholder; anything else is kept |
| Tasks.ReplaceServerPortWithPortIdempotent | src/main/java/org/springframework/cloud/deployer/spi/nomad/maven/MavenNomadAppDeployer.java:180-188 | replacing twice is replacing once |
| Tasks.ReplaceServerPortValues | src/main/java/org/springframework/cloud/deployer/spi/nomad/maven/MavenNomadAppDeployer.java:158 | rewriting the values keeps the keys |
| Tasks.MavenEnvironmentSpec | src/main/java/org/springframework/cloud/deployer/spi/nomad/maven/MavenNomadAppDeployer.java:153-159 | the Maven app environment has the merged keys plus `SPRING_APPLICATION_JSON`, which holds the JSON; every other value is port-rewritten, so none spells server.port |
| Tasks.MavenAppTaskOutcome | src/main/java/org/springframework/cloud/deployer/spi/nomad/maven/MavenNomadAppDeployer.java:125-178 | the Maven app task fails exactly when port, cpu, memory, environment list or argument conversion fails; otherwise the java driver runs the jar with the resolved options, no args, one port, and the artifact with its MD5 checksum |
| Tasks.MavenAppTaskEnvironment | src/main/java/org/springframework/cloud/deployer/spi/nomad/maven/MavenNomadAppDeployer.java:153-161 | the Maven app task's environment is the merged environment rewritten, plus the command-line map as JSON |
| Tasks.MavenLauncherTaskOutcome | src/main/java/org/springframework/cloud/deployer/spi/nomad/maven/MavenNomadTaskLauncher.java:46-88 | the Maven launcher task fails exactly when cpu, memory or the environment list does; otherwise it passes the launcher command line, has no network, keeps the merged environment and fetches the artifact without checksum |
| Jobs.MinimumJavaConstraintsAsWritten | src/main/java/org/springframework/cloud/deployer/spi/nomad/AbstractNomadDeployer.java:126-131 | as written: with a version set, the one constraint's left target is the version and its right target is unset |
| Jobs.MinimumJavaConstraintMisplaced | src/main/java/org/springframework/cloud/deployer/spi/nomad/AbstractNomadDeployer.java:127-130 | for minimum version `1.8` the written constraint is `1.8 >= (unset)`, not `${driver.java.version} >= 1.8` |
| Jobs.MinimumJavaConstraintsSpec | src/main/java/org/springframework/cloud/deployer/spi/nomad/AbstractNomadDeployer.java:120-132 | corrected: no constraint exactly when no version is configured; else one, `${driver.java.version} >= version` |
| Jobs.MinimumJavaConstraintsDiffer | src/main/java/org/springframework/cloud/deployer/spi/nomad/AbstractNomadDeployer.java:126-131 | written and corrected constraints agree on presence and operand and always differ in the right-hand side |
| Jobs.BuildJobSpecSpec | src/main/java/org/springframework/cloud/deployer/spi/nomad/AbstractNomadDeployer.java:106-135 | the job header fails exactly on a bad priority or metadata list, priority first; otherwise it carries the id as id and name, the region, the type name, the datacenters, the resolved priority and metadata, and the minimum-Java constraint exactly as the code builds it (version on the left, right-hand side unset) |
| Jobs.BuildTaskGroupSpec | src/main/java/org/springframework/cloud/deployer/spi/nomad/AbstractNomadDeployer.java:152-176 | the group fails exactly on a bad disk size; otherwise it has the given name and count, the deployer's restart delay and interval in nanoseconds, its restart attempts and mode, and each disk setting (sticky, migrate, size) from the request when present and from the deployer otherwise |
| Jobs.LauncherTaskGroupSpec | src/main/java/org/springframework/cloud/deployer/spi/nomad/docker/DockerNomadTaskLauncher.java:126-136 | a launcher group is the base group except that it fails after one attempt |
| Partitioning.IsIndexedAgree | src/main/java/org/springframework/cloud/deployer/spi/nomad/docker/IndexingDockerNomadAppDeployer.java:68-72 | both indexing deployers read the indexed property the same way: set, and `true` in any letter case |
| Partitioning.PutIfAbsent | src/main/java/org/springframework/cloud/deployer/spi/nomad/docker/IndexingDockerNomadAppDeployer.java:51-56 | put-if-absent adds the key, keeps every existing value, and sets the new key only when it was absent |
| Partitioning.IndexedEnvironmentSpec | src/main/java/org/springframework/cloud/deployer/spi/nomad/docker/IndexingDockerNomadAppDeployer.java:50-56 | the instance variables never overwrite a value, add only the two index keys and (with a group) the group key, and carry the index where the key was free |
| Partitioning.IndexedIdsDistinct | src/main/java/org/springframework/cloud/deployer/spi/nomad/docker/IndexingDockerNomadAppDeployer.java:45 | distinct indexes name distinct groups |
| Partitioning.IndexedGroupsContents | src/main/java/org/springframework/cloud/deployer/spi/nomad/docker/IndexingDockerNomadAppDeployer.java:44-60 | the indexed loop succeeds exactly when every iteration does, and then yields n groups, group i being iteration i |
| Partitioning.IndexedGroupShape | src/main/java/org/springframework/cloud/deployer/spi/nomad/docker/IndexingDockerNomadAppDeployer.java:45-58 | when it is built, each indexed group is a group of one named `id-i` whose one task has the same name and keeps every variable the task set |
| Partitioning.IndexedGroupsLayout | src/main/java/org/springframework/cloud/deployer/spi/nomad/maven/IndexingMavenNomadAppDeployer.java:41-57 | on success, n groups of one with pairwise distinct names, group i named `id-i` |
| Partitioning.SingleGroupLayout | src/main/java/org/springframework/cloud/deployer/spi/nomad/AbstractNomadDeployer.java:137-144 | without indexing the app is one group named by the id, with the requested count (1 when unset), holding the one task |
| Partitioning.IndexedAppLayout | src/main/java/org/springframework/cloud/deployer/spi/nomad/docker/IndexingDockerNomadAppDeployer.java:39-66 | an indexed app has as many groups as its count (none below 1), group i named `id-i` with count 1 |
| Partitioning.LauncherGroupLayout | src/main/java/org/springframework/cloud/deployer/spi/nomad/docker/DockerNomadTaskLauncher.java:121-136 | a launched task is one group of one named by the task id that fails after one attempt, whatever the count property says |
| Scheduler.Register | src/main/java/org/springframework/cloud/deployer/spi/nomad/docker/DockerNomadAppDeployer.java:69 | registering stores the job under its id, pending and unallocated, leaving other jobs alone |
| Scheduler.Deregister | src/main/java/org/springframework/cloud/deployer/spi/nomad/docker/DockerNomadAppDeployer.java:90 | deregistering removes exactly that job |
| TaskStatuses.BuildTaskStatusTable | src/main/java/org/springframework/cloud/deployer/spi/nomad/docker/DockerNomadTaskLauncher.java:203-229 | the launch state is the client-status table lookup; no allocation or an unlisted status is unknown |
| TaskStatuses.BuildTaskStatusInverse | src/main/java/org/springframework/cloud/deployer/spi/nomad/docker/DockerNomadTaskLauncher.java:207-228 | failed means `failed` or `lost`, complete means `complete` or `dead`, launching means `pending`, running means `running` |
| TaskStatuses.FirstAllocation | src/main/java/org/springframework/cloud/deployer/spi/nomad/docker/DockerNomadTaskLauncher.java:91 | the first allocation is absent exactly for an empty list |
| TaskStatuses.TaskStatusOfSpec | src/main/java/org/springframework/cloud/deployer/spi/nomad/docker/DockerNomadTaskLauncher.java:83-96 | the status names the task; an absent or unallocated job is unknown; later allocations never change the state |
| AppStatuses.AggregateStateSpec | src/main/java/org/springframework/cloud/deployer/spi/nomad/docker/DockerNomadAppDeployer.java:58-59 | the aggregate state deploy tests is unknown exactly when all instances (possibly none) are unknown, deployed exactly when there are instances and all are deployed; any error instance makes it error |
| AppStatuses.AllocationInstances | src/main/java/org/springframework/cloud/deployer/spi/nomad/AbstractNomadDeployer.java:190-196 | one instance per allocation, in order, named by the allocation |
| AppStatuses.AppStatusRules | src/main/java/org/springframework/cloud/deployer/spi/nomad/docker/DockerNomadAppDeployer.java:98-139 | an absent job has no instances and is unknown; a dead Docker job is one failed instance; otherwise one instance per allocation, as in the Maven deployer |
| Lifecycle.CompiledJobKinds | src/main/java/org/springframework/cloud/deployer/spi/nomad/AbstractNomadDeployer.java:96-104 | apps compile to service jobs and tasks to single-group batch jobs, each keyed by its id |
| Lifecycle.DeployPrecondition | src/main/java/org/springframework/cloud/deployer/spi/nomad/docker/DockerNomadAppDeployer.java:55-77 | deploy refuses any state but unknown; from unknown it succeeds exactly when the job compiles, returning the id and registering the job under it without touching others |
| Lifecycle.DeployAbsentOrDead | src/main/java/org/springframework/cloud/deployer/spi/nomad/maven/MavenNomadAppDeployer.java:57-67 | an unknown job id deploys whenever its job compiles; a dead job cannot be redeployed by the Docker deployer |
| Lifecycle.UndeployPrecondition | src/main/java/org/springframework/cloud/deployer/spi/nomad/docker/DockerNomadAppDeployer.java:80-95 | Docker undeploy fails exactly for an unknown application, Maven undeploy exactly for an absent job; otherwise only that job is removed |
| Lifecycle.LaunchRegisters | src/main/java/org/springframework/cloud/deployer/spi/nomad/docker/DockerNomadTaskLauncher.java:51-66 | launch registers a batch job under the fresh task id, which is unknown until allocated |
| Lifecycle.Cancel | src/main/java/org/springframework/cloud/deployer/spi/nomad/docker/DockerNomadTaskLauncher.java:69-80 | cancelling an unknown task changes nothing |
| Lifecycle.CancelSpec | src/main/java/org/springframework/cloud/deployer/spi/nomad/docker/DockerNomadTaskLauncher.java:69-106 | after cancel the task is unknown and other jobs are untouched; cancel is idempotent; cleanup and destroy are cancel |
| Lifecycle.RelaunchKeepsEarlierTask | src/main/java/org/springframework/cloud/deployer/spi/nomad/docker/DockerNomadTaskLauncher.java:51-58 | when both launches succeed, relaunching the same request at another time registers a second job and keeps the first |

## Left out

- Transport: every Nomad API call succeeds in the model. The `IOException`/`NomadException` paths that become `RuntimeException` are not modelled, and the registry is a plain map.
- Deregister removes the job from the registry. Nomad itself keeps a deregistered job as `dead` until garbage collection, so the Docker app deployer's `dead` rule is reached only through a registry given as input.
- The deploy check and the registration are one step in the model. The race between the status check and the register call in `deploy` is not modelled.
- Instance state: `NomadAppInstanceStatus` is not part of this model. Each allocation's instance state is an input function `instanceState`, and the instance id is the allocation id.
- The aggregate rule `AppStatuses.AggregateState` follows the deployer SPI's `AppStatus.getState`, which lives outside this repository. The model keeps instances as a sequence; the SPI's collapsing of instances with equal ids is not modelled.
- `exposeFabioRoute`: not modelled. It is not called by the modelled builders, and its logic is inverted (a present property yields the deployer default) and dereferences a null property when the key is absent.
- `createRuntimeEnvironmentInfo` and `environmentInfo`: reflective version lookup, not modelled.
- `determineEntryPointStyle`, `createVolumes` and `arrayToMap` belong to `AbstractDockerNomadDeployer`, which is not part of this model. The entry-point style and volumes come in through `Externals`, and the deployer environment variables are taken as an already converted map.
- `ByteSizeUtils.parseToMebibytes`, Jackson serialisation, `milliToNanoseconds`, the MD5 digest, `toURIString` and `Resource.getFilename`: library or superclass computations, supplied as inputs (`Externals.toMebibytes`, `Externals.toJson`, `Externals.milliToNanoseconds`, `Resource.md5`, `Resource.uri`, `Resource.filename`).
- `System.currentTimeMillis()` is the `timestamp` parameter of `CreateTaskId` and `Launch`.
- JavaStrings.ParseInt: `Integer.parseInt`/`valueOf` accept any Unicode decimal digit (through `Character.digit`); the model accepts only ASCII `0`-`9`, so text such as Arabic-Indic digits parses in Java but is a `NumberFormat` error here. This affects the priority, cpu, memory, count, `server.port` and disk-size properties.
- JavaStrings.ToUpperAscii: `String.toUpperCase` and `equalsIgnoreCase` are modelled on ASCII letters only; other Unicode case mappings are not.
- Nulls: Java `null` configuration values (javaOpts, minimum Java version) are `None`. Docker tasks carry an empty artifact list where Java leaves the list null. Launcher tasks carry an empty network list where Java leaves it null.
- Partitioning.IndexedEnvironment: when the request has no group, Java's `putIfAbsent` stores a null-valued `SPRING_CLOUD_APPLICATION_GROUP`; the model adds no entry.
- JSON: the `SPRING_APPLICATION_JSON` text is `Externals.toJson` of a map; a `JsonProcessingException` cannot occur in the model.
- `NomadAutoConfiguration` (bean wiring) and the configuration-properties classes beyond the fields the builders read.
- Tags and the Fabio URL prefix are modelled as functions only. None of the modelled builders attaches them to a task; `AbstractDockerNomadDeployer`, which is not part of this model, is where they would be used.

## Findings

| source | as written | input that shows it | evidently intended | confidence | as-written member | corrected member |
|---|---|---|---|---|---|---|
| src/main/java/org/springframework/cloud/deployer/spi/nomad/AbstractNomadDeployer.java:126-131 | the constraint calls `setLTarget` twice, so the left target becomes the version and the right target is never set | minimum Java version `1.8` gives the constraint `1.8 >= (unset)` | `${driver.java.version} >= 1.8`, i.e. the second call should be `setRTarget` | high; not executed | Jobs.MinimumJavaConstraintsAsWritten, Jobs.MinimumJavaConstraintMisplaced | Jobs.MinimumJavaConstraints, Jobs.MinimumJavaConstraintsSpec |

=== FILE: app_status.dfy ===
/** The state of a deployed application: one instance per allocation,
    folded into a single deployment state. */
module AppStatuses {
  import opened Scheduler

  datatype DeploymentState = Deploying | Deployed | Undeployed | Partial | Failed | Error | Unknown

  datatype AppInstance = AppInstance(id: string, state: DeploymentState)

  datatype AppStatus = AppStatus(deploymentId: string, instances: seq<AppInstance>)

  /** Every instance is in state `s`. */
  predicate AllIn(instances: seq<AppInstance>, s: DeploymentState) {
    forall i :: 0 <= i < |instances| ==> instances[i].state == s
  }

  /** Some instance is in state `s`. */
  predicate SomeIn(instances: seq<AppInstance>, s: DeploymentState) {
    exists i :: 0 <= i < |instances| && instances[i].state == s
  }

  /** The deployer SPI's AppStatus.getState: no instance is unknown; a single
      common state is that state; a mix is error if any instance is in error,
      else deploying if any is deploying, else partial if any is deployed or
      partial, else failed if any failed, else partial. */
  function AggregateState(status: AppStatus): DeploymentState {
    var xs := status.instances;
    if |xs| == 0 then Unknown
    else if AllIn(xs, xs[0].state) then xs[0].state
    else if SomeIn(xs, Error) then Error
    else if SomeIn(xs, Deploying) then Deploying
    else if SomeIn(xs, Deployed) || SomeIn(xs, Partial) then Partial
    else if SomeIn(xs, Failed) then Failed
    else Partial
  }

  /** An application is unknown exactly when every instance (possibly none)
      is unknown; it is deployed exactly when it has instances and all are
      deployed; and a mix of states is never reported as one of the mixed
      states unless it dominates. */
  lemma AggregateStateSpec(status: AppStatus)
    ensures AggregateState(status) == Unknown <==> AllIn(status.instances, Unknown)
    ensures AggregateState(status) == Deployed <==> |status.instances| > 0 && AllIn(status.instances, Deployed)
    ensures |status.instances| > 0 && AllIn(status.instances, Failed) ==> AggregateState(status) == Failed
    ensures SomeIn(status.instances, Error) ==> AggregateState(status) == Error
  {
    var xs := status.instances;
    if |xs| > 0 && !AllIn(xs, xs[0].state) {
      var j :| 0 <= j < |xs| && xs[j].state != xs[0].state;
      assert !AllIn(xs, Unknown) by {
        if xs[0].state == Unknown { assert xs[j].state != Unknown; } else { assert xs[0].state != Unknown; }
      }
      assert !AllIn(xs, Deployed) by {
        if xs[0].state == Deployed { assert xs[j].state != Deployed; } else { assert xs[0].state != Deployed; }
      }
    }
    if SomeIn(xs, Error) {
      var j :| 0 <= j < |xs| && xs[j].state == Error;
      if AllIn(xs, xs[0].state) {
        assert xs[0].state == xs[j].state;
      }
    }
  }

  /** One instance per allocation, in the scheduler's order, each with the
      state the allocation's details map to. */
  function AllocationInstances(allocations: seq<Allocation>, instanceState: Allocation -> DeploymentState): (xs: seq<AppInstance>)
    ensures |xs| == |allocations|
    ensures forall i :: 0 <= i < |allocations| ==>
              xs[i] == AppInstance(allocations[i].id, instanceState(allocations[i]))
  {
    seq(|allocations|, i requires 0 <= i < |allocations| => AppInstance(allocations[i].id, instanceState(allocations[i])))
  }

  /** status of the Maven app deployer: no instance for an absent job, else
      one per allocation. */
  function MavenAppStatus(deploymentId: string, registry: Registry, instanceState: Allocation -> DeploymentState): AppStatus {
    if deploymentId !in registry then AppStatus(deploymentId, [])
    else AppStatus(deploymentId, AllocationInstances(registry[deploymentId].allocations, instanceState))
  }

  /** The job status the Docker app deployer treats as a failed deployment. */
  const Dead := "dead"

  /** status of the Docker app deployer: as the Maven one, except that a dead
      job is one failed instance named by the deployment id. */
  function DockerAppStatus(deploymentId: string, registry: Registry, instanceState: Allocation -> DeploymentState): AppStatus {
    if deploymentId in registry && registry[deploymentId].status == Dead then
      AppStatus(deploymentId, [AppInstance(deploymentId, Failed)])
    else MavenAppStatus(deploymentId, registry, instanceState)
  }

  /** An absent job is unknown with no instances; a dead job is failed
      (Docker); otherwise the instances are the allocations. */
  lemma AppStatusRules(deploymentId: string, registry: Registry, instanceState: Allocation -> DeploymentState)
    ensures deploymentId !in registry ==>
              MavenAppStatus(deploymentId, registry, instanceState).instances == [] &&
              DockerAppStatus(deploymentId, registry, instanceState).instances == [] &&
              AggregateState(DockerAppStatus(deploymentId, registry, instanceState)) == Unknown &&
              AggregateState(MavenAppStatus(deploymentId, registry, instanceState)) == Unknown
    ensures deploymentId in registry && registry[deploymentId].status == Dead ==>
              DockerAppStatus(deploymentId, registry, instanceState).instances == [AppInstance(deploymentId, Failed)] &&
              AggregateState(DockerAppStatus(deploymentId, registry, instanceState)) == Failed
    ensures deploymentId in registry && registry[deploymentId].status != Dead ==>
              DockerAppStatus(deploymentId, registry, instanceState) == MavenAppStatus(deploymentId, registry, instanceState)
    ensures deploymentId in registry ==>
              |MavenAppStatus(deploymentId, registry, instanceState).instances| == |registry[deploymentId].allocations|
  {
  }
}

=== FILE: command_lines.dfy ===
/** The command line handed to an application or a task, and the map that
    the Maven app deployer derives from it for SPRING_APPLICATION_JSON. */
module CommandLines {
  import opened Results
  import opened JavaStrings
  import opened Requests

  /** `--key=value` for one definition property. */
  function PropertyArgument(key: string, value: string): string {
    "--" + key + "=" + value
  }

  /** One `--key=value` per definition property, in iteration order. */
  function PropertyArguments(props: seq<(string, string)>): (args: seq<string>)
    ensures |args| == |props|
    ensures forall i :: 0 <= i < |props| ==> args[i] == PropertyArgument(props[i].0, props[i].1)
  {
    seq(|props|, i requires 0 <= i < |props| => PropertyArgument(props[i].0, props[i].1))
  }

  /** createCommandLineArguments of the task launchers: the property
      arguments, then the request's own arguments. */
  function LauncherArguments(request: DeploymentRequest): (args: seq<string>)
    ensures |args| == |request.definition.properties| + |request.commandlineArguments|
    ensures args[..|request.definition.properties|] == PropertyArguments(request.definition.properties)
    ensures args[|request.definition.properties|..] == request.commandlineArguments
  {
    PropertyArguments(request.definition.properties) + request.commandlineArguments
  }

  /** The argument binding the HTTP port to Nomad's dynamic port. */
  const ServerPortArgument := PropertyArgument(ServerPortKey, NomadPortPlaceholder)

  /** createCommandLineArguments of the app deployers: the launcher
      arguments, plus the port argument unless some argument is exactly the
      text `server.port`. */
  function AppArguments(request: DeploymentRequest): (args: seq<string>)
    ensures ServerPortKey in LauncherArguments(request) ==> args == LauncherArguments(request)
    ensures ServerPortKey !in LauncherArguments(request) ==> args == LauncherArguments(request) + [ServerPortArgument]
  {
    var args := LauncherArguments(request);
    if ServerPortKey in args then args else args + [ServerPortArgument]
  }

  /** Every property argument starts with `-`, so none is ever the bare text
      `server.port`: the port argument is appended exactly when the request's
      own arguments do not contain that text. */
  lemma PortAppendedUnlessGiven(request: DeploymentRequest)
    ensures ServerPortKey in request.commandlineArguments <==>
            AppArguments(request) == LauncherArguments(request)
    ensures ServerPortKey !in request.commandlineArguments ==>
            AppArguments(request)[|AppArguments(request)| - 1] == ServerPortArgument
  {
    var props := request.definition.properties;
    var pa := PropertyArguments(props);
    var args := LauncherArguments(request);
    assert args == pa + request.commandlineArguments;
    forall i | 0 <= i < |pa|
      ensures pa[i] != ServerPortKey
    {
      assert pa[i][0] == '-';
    }
    assert ServerPortKey in args <==> ServerPortKey in request.commandlineArguments;
  }

  // ---------------------------------------------------------------------------
  // toSpringApplicationJson: arguments to a key/value map
  // ---------------------------------------------------------------------------

  /** replaceAll("-", ""): every dash goes, in the key and in the value. */
  function StripDashes(arg: string): (r: string)
    ensures '-' !in r
    ensures '=' in r <==> '=' in arg
  {
    RemoveChar(arg, '-')
  }

  /** One argument after stripping its dashes: without `=` it cannot be
      split; otherwise the key is the text before the first `=` and the
      value the text after the last one. */
  datatype ParsedArgument = Unseparated(text: string) | KeyValue(key: string, value: string)

  function ParseArgument(arg: string): (p: ParsedArgument)
    ensures p.Unseparated? <==> '=' !in arg
  {
    SplitKeyValue(StripDashes(arg))
  }

  /** The key before the first `=` and the value after the last one. */
  function SplitKeyValue(a: string): (p: ParsedArgument)
    ensures p.Unseparated? <==> '=' !in a
  {
    if '=' !in a then Unseparated(a)
    else KeyValue(a[..IndexOf(a, '=')], a[LastIndexOf(a, '=') + 1..])
  }

  /** The key is the longest `=`-free prefix and the value the longest
      `=`-free suffix. */
  lemma SplitKeyValueShape(a: string)
    ensures SplitKeyValue(a).Unseparated? ==> SplitKeyValue(a).text == a
    ensures SplitKeyValue(a).KeyValue? ==>
              var p := SplitKeyValue(a);
              '=' !in p.key && '=' !in p.value &&
              (forall ch :: ch in p.key ==> ch in a) && (forall ch :: ch in p.value ==> ch in a) &&
              |p.key| < |a| && a[..|p.key|] == p.key && a[|p.key|] == '=' &&
              |p.value| < |a| && a[|a| - |p.value|..] == p.value && a[|a| - |p.value| - 1] == '='
  {
    if '=' in a {
      var first, last := IndexOf(a, '='), LastIndexOf(a, '=');
      assert forall ch :: ch in a[..first] ==> ch in a;
      assert forall ch :: ch in a[last + 1..] ==> ch in a;
      assert a[|a| - |a[last + 1..]|..] == a[last + 1..];
    }
  }

  /** An unseparated argument keeps its stripped text; otherwise the key is
      the longest `=`-free prefix of the stripped argument and the value its
      longest `=`-free suffix, both without dashes. */
  lemma ParseArgumentShape(arg: string)
    ensures ParseArgument(arg).Unseparated? ==> ParseArgument(arg).text == StripDashes(arg)
    ensures ParseArgument(arg).KeyValue? ==>
              var a, p := StripDashes(arg), ParseArgument(arg);
              '=' !in p.key && '=' !in p.value && '-' !in p.key && '-' !in p.value &&
              |p.key| < |a| && a[..|p.key|] == p.key && a[|p.key|] == '=' &&
              |p.value| < |a| && a[|a| - |p.value|..] == p.value && a[|a| - |p.value| - 1] == '='
  {
    SplitKeyValueShape(StripDashes(arg));
  }

  /** Collectors.toMap over parsed arguments, left to right: an argument
      without `=` fails (substring(0, -1)), and a key seen before fails
      (toMap refuses duplicates). */
  function Collect(ps: seq<ParsedArgument>): (r: Result<map<string, string>>)
    ensures r.Ok? ==> forall i :: 0 <= i < |ps| ==> ps[i].KeyValue?
    decreases |ps|
  {
    if |ps| == 0 then Ok(map[])
    else
      var n := |ps| - 1;
      var m :- Collect(ps[..n]);
      assert forall i :: 0 <= i < n ==> ps[i] == ps[..n][i];
      match ps[n]
      case Unseparated(text) => Err(MissingSeparator(text))
      case KeyValue(key, value) => if key in m then Err(DuplicateKey(key)) else Ok(m[key := value])
  }

  /** Every argument parsed. */
  function ParseAll(args: seq<string>): (ps: seq<ParsedArgument>)
    ensures |ps| == |args|
    ensures forall i :: 0 <= i < |args| ==> ps[i] == ParseArgument(args[i])
  {
    seq(|args|, i requires 0 <= i < |args| => ParseArgument(args[i]))
  }

  /** The argument-list-to-map step of toSpringApplicationJson. */
  function ArgumentsToMap(args: seq<string>): (r: Result<map<string, string>>)
    ensures r.Ok? ==> forall i :: 0 <= i < |args| ==> '=' in args[i]
  {
    Collect(ParseAll(args))
  }

  /** Every argument is a key/value pair and no two share a key. */
  predicate Collectable(ps: seq<ParsedArgument>) {
    (forall i :: 0 <= i < |ps| ==> ps[i].KeyValue?) &&
    forall i, j :: 0 <= i < j < |ps| && ps[i].KeyValue? && ps[j].KeyValue? ==> ps[i].key != ps[j].key
  }

  /** The map holds exactly the pairs' keys, each with its pair's value. */
  lemma {:induction false} CollectEntries(ps: seq<ParsedArgument>)
    requires Collect(ps).Ok?
    ensures forall i :: 0 <= i < |ps| ==> ps[i].key in Collect(ps).value && Collect(ps).value[ps[i].key] == ps[i].value
    ensures forall k :: k in Collect(ps).value ==> exists i :: 0 <= i < |ps| && ps[i].KeyValue? && ps[i].key == k
    decreases |ps|
  {
    if |ps| > 0 {
      var n := |ps| - 1;
      var prefix := ps[..n];
      CollectEntries(prefix);
      var m, r := Collect(prefix).value, Collect(ps).value;
      assert forall i :: 0 <= i < n ==> ps[i] == prefix[i];
      assert ps[n].key !in m && r == m[ps[n].key := ps[n].value];
      forall i | 0 <= i < n
        ensures ps[i].key in r && r[ps[i].key] == ps[i].value
      {
        assert ps[i] == prefix[i];
      }
      forall k | k in r
        ensures exists i :: 0 <= i < |ps| && ps[i].KeyValue? && ps[i].key == k
      {
        if k != ps[n].key {
          var i :| 0 <= i < n && prefix[i].KeyValue? && prefix[i].key == k;
          assert ps[i] == prefix[i];
        }
      }
    }
  }

  /** The conversion succeeds exactly when every argument is a pair and the
      keys are distinct. */
  lemma {:induction false} CollectSucceeds(ps: seq<ParsedArgument>)
    ensures Collect(ps).Ok? <==> Collectable(ps)
    decreases |ps|
  {
    if |ps| > 0 {
      var n := |ps| - 1;
      var prefix := ps[..n];
      CollectSucceeds(prefix);
      assert forall i :: 0 <= i < n ==> ps[i] == prefix[i];
      if Collect(prefix).Err? {
        if !(forall i :: 0 <= i < n ==> prefix[i].KeyValue?) {
          var i :| 0 <= i < n && !prefix[i].KeyValue?;
          assert !ps[i].KeyValue?;
        } else {
          var i, j :| 0 <= i < j < n && prefix[i].KeyValue? && prefix[j].KeyValue? && prefix[i].key == prefix[j].key;
          assert ps[i] == prefix[i] && ps[j] == prefix[j];
        }
      } else if ps[n].KeyValue? {
        CollectEntries(prefix);
        if ps[n].key in Collect(prefix).value {
          var i :| 0 <= i < n && prefix[i].KeyValue? && prefix[i].key == ps[n].key;
          assert ps[i] == prefix[i];
        } else {
          forall i, j | 0 <= i < j < |ps| && ps[i].KeyValue? && ps[j].KeyValue?
            ensures ps[i].key != ps[j].key
          {
            assert ps[i] == prefix[i];
            if j < n { assert ps[j] == prefix[j]; }
          }
        }
      }
    }
  }

  /** The argument conversion succeeds exactly when every argument has a `=`
      and no two arguments have the same key; then each key maps to its
      argument's value. */
  lemma ArgumentsToMapCharacterised(args: seq<string>)
    ensures ArgumentsToMap(args).Ok? <==> Collectable(ParseAll(args))
    ensures ArgumentsToMap(args).Ok? ==>
              forall i :: 0 <= i < |args| ==>
                ParseArgument(args[i]).key in ArgumentsToMap(args).value &&
                ArgumentsToMap(args).value[ParseArgument(args[i]).key] == ParseArgument(args[i]).value
  {
    CollectSucceeds(ParseAll(args));
    if ArgumentsToMap(args).Ok? {
      CollectEntries(ParseAll(args));
    }
  }

  /** Stripping a property argument removes its leading dashes and the
      dashes of its value. */
  lemma StripPropertyArgument(key: string, value: string)
    requires '-' !in key
    ensures StripDashes(PropertyArgument(key, value)) == key + "=" + RemoveChar(value, '-')
  {
    var v := RemoveChar(value, '-');
    assert PropertyArgument(key, value) == "--" + (key + ("=" + value));
    calc {
      RemoveChar("--" + (key + ("=" + value)), '-');
      { RemoveCharConcat("--", key + ("=" + value), '-'); }
      RemoveChar("--", '-') + RemoveChar(key + ("=" + value), '-');
      { assert RemoveChar("--", '-') == ""; }
      RemoveChar(key + ("=" + value), '-');
      { RemoveCharConcat(key, "=" + value, '-'); RemoveCharAbsent(key, '-'); }
      key + RemoveChar("=" + value, '-');
      { RemoveCharConcat("=", value, '-'); RemoveCharAbsent("=", '-'); }
      key + ("=" + v);
    }
    assert key + ("=" + v) == key + "=" + v;
  }

  /** The property argument of a key free of `-` and `=` has that key, and
      its value with the dashes removed when the value has no `=`. */
  lemma PropertyArgumentParsed(key: string, value: string)
    requires '-' !in key && '=' !in key
    ensures ParseArgument(PropertyArgument(key, value)).KeyValue?
    ensures ParseArgument(PropertyArgument(key, value)).key == key
    ensures '=' !in value ==> ParseArgument(PropertyArgument(key, value)).value == RemoveChar(value, '-')
  {
    StripPropertyArgument(key, value);
    SeparatedParts(key, RemoveChar(value, '-'));
  }

  /** `key=v` with an `=`-free key splits at its first `=` into the key and
      v, and at its last `=` into v when v has no `=` either. */
  lemma SeparatedParts(key: string, v: string)
    requires '=' !in key
    ensures var a := key + "=" + v;
      '=' in a && a[..IndexOf(a, '=')] == key &&
      ('=' !in v ==> a[LastIndexOf(a, '=') + 1..] == v)
  {
    var a := key + "=" + v;
    assert a == key + ['='] + v;
    assert a[|key|] == '=';
    IndexOfAfterFree(key, '=', v);
    assert a[..|key|] == key;
    if '=' !in v {
      LastIndexOfBeforeFree(key, '=', v);
      assert a[|key| + 1..] == v;
    }
  }

  /** Each plain property argument parses back to its property. */
  lemma PlainPropertiesParsed(props: seq<(string, string)>)
    requires forall i :: 0 <= i < |props| ==>
               '-' !in props[i].0 && '=' !in props[i].0 && '-' !in props[i].1 && '=' !in props[i].1
    ensures forall i :: 0 <= i < |props| ==>
              ParseAll(PropertyArguments(props))[i] == KeyValue(props[i].0, props[i].1)
  {
    forall i | 0 <= i < |props|
      ensures ParseArgument(PropertyArgument(props[i].0, props[i].1)) == KeyValue(props[i].0, props[i].1)
    {
      PropertyArgumentParsed(props[i].0, props[i].1);
      RemoveCharAbsent(props[i].1, '-');
    }
  }

  /** Keys and values free of `-` and `=` survive the trip through the
      command line: the map is the definition's property map. */
  lemma PropertyArgumentsRoundTrip(props: Properties)
    requires forall i :: 0 <= i < |props| ==>
               '-' !in props[i].0 && '=' !in props[i].0 && '-' !in props[i].1 && '=' !in props[i].1
    ensures ArgumentsToMap(PropertyArguments(props)) == Ok(ToMap(props))
  {
    var ps := ParseAll(PropertyArguments(props));
    PlainPropertiesParsed(props);
    PairsCollected(props, ps);
    CollectEntries(ps);
    MapOfProperties(props, Collect(ps).value);
  }

  /** Pairs carrying the properties' distinct keys are collected. */
  lemma PairsCollected(props: Properties, ps: seq<ParsedArgument>)
    requires |ps| == |props|
    requires forall i :: 0 <= i < |props| ==> ps[i] == KeyValue(props[i].0, props[i].1)
    ensures Collect(ps).Ok?
  {
    assert forall i :: 0 <= i < |ps| ==> ps[i].KeyValue? && ps[i].key == props[i].0;
    assert Collectable(ps);
    CollectSucceeds(ps);
  }

  /** A map holding every property, and nothing else, is the property map. */
  lemma MapOfProperties(props: Properties, r: map<string, string>)
    requires forall i :: 0 <= i < |props| ==> props[i].0 in r && r[props[i].0] == props[i].1
    requires forall k :: k in r ==> exists i :: 0 <= i < |props| && props[i].0 == k
    ensures r == ToMap(props)
  {
    var m := ToMap(props);
    forall key | key in r
      ensures key in m && m[key] == r[key]
    {
      var i :| 0 <= i < |props| && props[i].0 == key;
    }
    assert r.Keys == m.Keys;
  }

  /** The map behind SPRING_APPLICATION_JSON in the Maven app deployer. */
  function SpringApplicationJsonMap(request: DeploymentRequest): (r: Result<map<string, string>>)
    ensures r.Ok? <==> Collectable(ParseAll(AppArguments(request)))
  {
    CollectSucceeds(ParseAll(AppArguments(request)));
    ArgumentsToMap(AppArguments(request))
  }

  /** A definition that sets server.port (and no bare `server.port` argument)
      cannot be converted: its `--server.port=…` argument and the appended
      port argument share the key `server.port`. */
  lemma DefinitionServerPortRejected(request: DeploymentRequest)
    requires Lookup(request.definition.properties, ServerPortKey).Some?
    requires ServerPortKey !in request.commandlineArguments
    ensures SpringApplicationJsonMap(request).Err?
  {
    var props := request.definition.properties;
    var i :| 0 <= i < |props| && props[i].0 == ServerPortKey;
    PortAppendedUnlessGiven(request);
    var launcher := LauncherArguments(request);
    var args := AppArguments(request);
    assert args == launcher + [ServerPortArgument];
    assert args[i] == PropertyArgument(ServerPortKey, props[i].1) by {
      assert launcher[..|props|][i] == PropertyArguments(props)[i];
    }
    assert '-' !in ServerPortKey && '=' !in ServerPortKey;
    PropertyArgumentParsed(ServerPortKey, props[i].1);
    PropertyArgumentParsed(ServerPortKey, NomadPortPlaceholder);
    SharedKeyNotCollectable(ParseAll(args), i, |args| - 1);
  }

  /** Two arguments with the same key cannot be collected. */
  lemma SharedKeyNotCollectable(ps: seq<ParsedArgument>, i: int, j: int)
    requires 0 <= i < j < |ps| && ps[i].KeyValue? && ps[j].KeyValue? && ps[i].key == ps[j].key
    ensures !Collectable(ps)
  {
  }


  /** Dashes inside values are lost: `--name=a-b` becomes {name: ab}. */
  lemma ValueDashesDropped()
    ensures ArgumentsToMap([PropertyArgument("name", "a-b")]) == Ok(map["name" := "ab"])
  {
    assert RemoveChar("a-b", '-') == "ab" by {
      assert "a-b" == "a" + ("-" + "b");
      RemoveCharConcat("a", "-" + "b", '-');
      RemoveCharConcat("-", "b", '-');
      RemoveCharAbsent("a", '-');
      RemoveCharAbsent("b", '-');
      assert RemoveChar("-", '-') == "";
      assert "a" + ("" + "b") == "ab";
    }
    assert '-' !in "name" && '=' !in "name" && '=' !in "a-b";
    PropertyArgumentParsed("name", "a-b");
    SingleCollect(KeyValue("name", "ab"));
  }

  /** One pair collects into the one-entry map. */
  lemma SingleCollect(p: ParsedArgument)
    requires p.KeyValue?
    ensures Collect([p]) == Ok(map[p.key := p.value])
  {
    assert [p][..0] == [];
  }
}

=== FILE: entry_points.dfy ===
/** How a Docker task receives the application's properties: as command-line
    arguments (exec), as SPRING_APPLICATION_JSON (boot), or as environment
    variables (shell). */
module EntryPoints {
  import opened Results
  import opened JavaStrings
  import opened Requests

  /** key.replace('.', '_').toUpperCase(): the environment-variable spelling
      of a property key. */
  function ShellVariableName(key: string): (name: string)
    ensures |name| == |key|
    ensures '.' !in name
    ensures forall i :: 0 <= i < |name| ==> !IsLowerAscii(name[i])
    ensures forall i :: 0 <= i < |key| && key[i] != '.' && !IsLowerAscii(key[i]) ==> name[i] == key[i]
    ensures forall i :: 0 <= i < |key| ==> name[i] == (if key[i] == '.' then '_' else UpperChar(key[i]))
  {
    var replaced := ReplaceChar(key, '.', '_');
    var name := ToUpperAscii(replaced);
    assert forall i :: 0 <= i < |name| ==> name[i] != '.' by {
      forall i | 0 <= i < |name|
        ensures name[i] != '.'
      {
        assert replaced[i] != '.';
      }
    }
    name
  }

  /** A key that is already an upper-case, dot-free name is its own shell name. */
  lemma ShellVariableNameIdentity(key: string)
    requires '.' !in key
    requires forall i :: 0 <= i < |key| ==> !IsLowerAscii(key[i])
    ensures ShellVariableName(key) == key
  {
  }

  /** Mangling is idempotent: a shell name is its own shell name. */
  lemma ShellVariableNameIdempotent(key: string)
    ensures ShellVariableName(ShellVariableName(key)) == ShellVariableName(key)
  {
    ShellVariableNameIdentity(ShellVariableName(key));
  }

  /** The shell loop: each definition property, in iteration order, put into
      the environment under its shell name. */
  function ShellEnvironment(env: map<string, string>, props: seq<(string, string)>): (r: map<string, string>)
    ensures env.Keys <= r.Keys
    decreases |props|
  {
    if |props| == 0 then env
    else
      var n := |props| - 1;
      ShellEnvironment(env, props[..n])[ShellVariableName(props[n].0) := props[n].1]
  }

  /** No later property has the same shell name as property `i`. */
  predicate LastWithShellName(props: seq<(string, string)>, i: int)
    requires 0 <= i < |props|
  {
    forall j :: i < j < |props| ==> ShellVariableName(props[j].0) != ShellVariableName(props[i].0)
  }

  /** Each shell name holds the value of the last property spelled that way. */
  lemma {:induction false} ShellEnvironmentLastWins(env: map<string, string>, props: seq<(string, string)>, i: int)
    requires 0 <= i < |props| && LastWithShellName(props, i)
    ensures ShellVariableName(props[i].0) in ShellEnvironment(env, props)
    ensures ShellEnvironment(env, props)[ShellVariableName(props[i].0)] == props[i].1
    decreases |props|
  {
    var n := |props| - 1;
    if i < n {
      var prefix := props[..n];
      assert prefix[i] == props[i];
      assert LastWithShellName(prefix, i) by {
        forall j | i < j < n
          ensures ShellVariableName(prefix[j].0) != ShellVariableName(prefix[i].0)
        {
          assert prefix[j] == props[j];
        }
      }
      ShellEnvironmentLastWins(env, prefix, i);
    }
  }

  /** A variable no property is spelled as keeps its earlier value, or stays absent. */
  lemma {:induction false} ShellEnvironmentKeepsOthers(env: map<string, string>, props: seq<(string, string)>, k: string)
    requires forall i :: 0 <= i < |props| ==> ShellVariableName(props[i].0) != k
    ensures k in ShellEnvironment(env, props) <==> k in env
    ensures k in env ==> ShellEnvironment(env, props)[k] == env[k]
    decreases |props|
  {
    if |props| > 0 {
      var n := |props| - 1;
      var prefix := props[..n];
      assert forall i :: 0 <= i < n ==> prefix[i] == props[i];
      ShellEnvironmentKeepsOthers(env, prefix, k);
    }
  }

  /** What the entry-point switch adds to a task: its environment and, for
      exec, the `args` entry of the driver configuration. */
  datatype EntryPointSetup = EntryPointSetup(env: map<string, string>, args: Option<seq<string>>)

  /** The entry-point switch of the Docker buildTask implementations. */
  function ApplyEntryPoint(style: EntryPointStyle, env: map<string, string>, props: Properties,
                           commandLine: seq<string>, toJson: map<string, string> -> string): (r: Result<EntryPointSetup>)
    ensures r.Err? <==> style == Boot && SpringApplicationJson in env
    ensures r.Err? ==> r.error == BootStyleConflict
    ensures r.Ok? ==> (r.value.args.Some? <==> style == Exec)
    ensures style == Exec ==> r == Ok(EntryPointSetup(env, Some(commandLine)))
    ensures style == Boot && r.Ok? ==>
              r.value.env.Keys == env.Keys + {SpringApplicationJson} &&
              r.value.env[SpringApplicationJson] == toJson(ToMap(props)) &&
              forall k :: k in env ==> r.value.env[k] == env[k]
    ensures style == Shell ==> r == Ok(EntryPointSetup(ShellEnvironment(env, props), None))
  {
    match style
    case Exec => Ok(EntryPointSetup(env, Some(commandLine)))
    case Boot =>
      if SpringApplicationJson in env then Err(BootStyleConflict)
      else Ok(EntryPointSetup(env[SpringApplicationJson := toJson(ToMap(props))], None))
    case Shell => Ok(EntryPointSetup(ShellEnvironment(env, props), None))
  }

  /** Under shell, every property lands in the environment under its shell
      name (the last property of a shared spelling wins), and every other
      variable is left as it was. */
  lemma ShellStyleEnvironment(env: map<string, string>, props: Properties, commandLine: seq<string>,
                              toJson: map<string, string> -> string)
    ensures ApplyEntryPoint(Shell, env, props, commandLine, toJson).Ok?
    ensures forall i :: 0 <= i < |props| && LastWithShellName(props, i) ==>
              ShellVariableName(props[i].0) in ApplyEntryPoint(Shell, env, props, commandLine, toJson).value.env &&
              ApplyEntryPoint(Shell, env, props, commandLine, toJson).value.env[ShellVariableName(props[i].0)] == props[i].1
    ensures forall k :: k in env && (forall i :: 0 <= i < |props| ==> ShellVariableName(props[i].0) != k) ==>
              k in ApplyEntryPoint(Shell, env, props, commandLine, toJson).value.env &&
              ApplyEntryPoint(Shell, env, props, commandLine, toJson).value.env[k] == env[k]
  {
    forall i | 0 <= i < |props| && LastWithShellName(props, i)
      ensures ShellVariableName(props[i].0) in ShellEnvironment(env, props)
      ensures ShellEnvironment(env, props)[ShellVariableName(props[i].0)] == props[i].1
    {
      ShellEnvironmentLastWins(env, props, i);
    }
    forall k | k in env && (forall i :: 0 <= i < |props| ==> ShellVariableName(props[i].0) != k)
      ensures ShellEnvironment(env, props)[k] == env[k]
    {
      ShellEnvironmentKeepsOthers(env, props, k);
    }
  }
}

=== FILE: identity.dfy ===
/** Identifiers and labels derived from a request: the deployment id, the
    one-shot task id, the tag list and the Fabio URL prefix. */
module Identity {
  import opened Results
  import opened JavaStrings
  import opened Requests

  /** Nomad ids may not contain `.`: every `.` becomes `-`. */
  function Normalize(s: string): (r: string)
    ensures '.' !in r
    ensures |r| == |s|
  {
    ReplaceCharRemoves(s, '.', '-');
    ReplaceChar(s, '.', '-')
  }

  /** Normalising distributes over concatenation. */
  lemma NormalizeConcat(a: string, b: string)
    ensures Normalize(a + b) == Normalize(a) + Normalize(b)
  {
    var l, r := Normalize(a + b), Normalize(a) + Normalize(b);
    assert |l| == |r|;
    forall i | 0 <= i < |l|
      ensures l[i] == r[i]
    {
      if i < |a| {
        assert (a + b)[i] == a[i];
      } else {
        assert (a + b)[i] == b[i - |a|];
      }
    }
  }

  /** A string without `.` is its own normal form. */
  lemma NormalizeIdentity(s: string)
    requires '.' !in s
    ensures Normalize(s) == s
  {
  }

  /** `group-name` when the group property is present, `name` otherwise. */
  function BaseName(request: DeploymentRequest): string {
    var name := request.definition.name;
    match Get(request.deploymentProperties, GroupKey)
    case None => name
    case Some(group) => group + "-" + name
  }

  /** createDeploymentId. */
  function CreateDeploymentId(request: DeploymentRequest): (id: string)
    ensures '.' !in id
    ensures GroupKey !in request.deploymentProperties ==>
              id == Normalize(request.definition.name)
    ensures GroupKey in request.deploymentProperties ==>
              id == Normalize(request.deploymentProperties[GroupKey]) + "-" + Normalize(request.definition.name)
  {
    var name := request.definition.name;
    if GroupKey in request.deploymentProperties then
      var group := request.deploymentProperties[GroupKey];
      NormalizeConcat(group + "-", name);
      NormalizeConcat(group, "-");
      Normalize(BaseName(request))
    else
      Normalize(BaseName(request))
  }

  /** A request without a group whose name has no `.` is deployed under its name. */
  lemma DeploymentIdOfPlainName(request: DeploymentRequest)
    requires GroupKey !in request.deploymentProperties
    requires '.' !in request.definition.name
    ensures CreateDeploymentId(request) == request.definition.name
  {
    NormalizeIdentity(request.definition.name);
  }

  /** createTaskId: the deployment id, a dash, and the launch timestamp in
      milliseconds. */
  function CreateTaskId(request: DeploymentRequest, timestamp: nat): (id: string)
    ensures '.' !in id
    ensures |id| > |CreateDeploymentId(request)|
    ensures id[..|CreateDeploymentId(request)|] == CreateDeploymentId(request)
    ensures id[|CreateDeploymentId(request)|..] == "-" + NatToString(timestamp)
  {
    var base := Normalize(BaseName(request));
    assert base == CreateDeploymentId(request);
    var id := base + "-" + NatToString(timestamp);
    assert id[|base|..] == "-" + NatToString(timestamp);
    id
  }

  /** Two launches of the same request at different times get different ids. */
  lemma {:induction false} TaskIdsDistinct(request: DeploymentRequest, t1: nat, t2: nat)
    requires t1 != t2
    ensures CreateTaskId(request, t1) != CreateTaskId(request, t2)
  {
    var n := |CreateDeploymentId(request)|;
    var a, b := CreateTaskId(request, t1), CreateTaskId(request, t2);
    NatToStringInjective(t1, t2);
    assert a[n..][1..] == NatToString(t1);
    assert b[n..][1..] == NatToString(t2);
  }

  const AppTagPrefix := "spring-app-id="
  const GroupTagPrefix := "spring-group-id="
  const DeploymentTagPrefix := "spring-deployment-id="

  /** createTags: the app tag, the group tag when there is a group, and the
      deployment tag naming the instance (`id-index`) when an index is given. */
  function CreateTags(deploymentId: string, request: DeploymentRequest, instanceIndex: Option<int>): (tags: seq<string>)
    ensures |tags| == if GroupKey in request.deploymentProperties then 3 else 2
    ensures tags[0] == AppTagPrefix + deploymentId
    ensures GroupKey in request.deploymentProperties ==>
              tags[1] == GroupTagPrefix + request.deploymentProperties[GroupKey]
    ensures instanceIndex.None? ==> tags[|tags| - 1] == DeploymentTagPrefix + deploymentId
    ensures instanceIndex.Some? ==>
              tags[|tags| - 1] == DeploymentTagPrefix + deploymentId + "-" + IntToString(instanceIndex.value)
  {
    var groupTags := match Get(request.deploymentProperties, GroupKey)
      case None => []
      case Some(group) => [GroupTagPrefix + group];
    var instanceId := match instanceIndex
      case None => deploymentId
      case Some(index) => deploymentId + "-" + IntToString(index);
    [AppTagPrefix + deploymentId] + groupTags + [DeploymentTagPrefix + instanceId]
  }

  /** Distinct instance indexes give distinct deployment tags. */
  lemma {:induction false} InstanceTagsDistinct(deploymentId: string, request: DeploymentRequest, i: nat, j: nat)
    requires i != j
    ensures CreateTags(deploymentId, request, Some(i)) != CreateTags(deploymentId, request, Some(j))
  {
    var a, b := CreateTags(deploymentId, request, Some(i)), CreateTags(deploymentId, request, Some(j));
    var p := DeploymentTagPrefix + deploymentId + "-";
    NatToStringInjective(i, j);
    assert a[|a| - 1] == p + NatToString(i);
    assert b[|b| - 1] == p + NatToString(j);
    assert a[|a| - 1][|p|..] == NatToString(i);
    assert b[|b| - 1][|p|..] == NatToString(j);
  }

  const FabioUrlPrefix := "urlprefix-"

  /** buildFabioUrlPrefix: `urlprefix-<host>/`, the host being the route
      hostname property when present and the deployment id otherwise. */
  function BuildFabioUrlPrefix(request: DeploymentRequest, deploymentId: string): (r: string)
    ensures |r| >= |FabioUrlPrefix| + 1
    ensures r[..|FabioUrlPrefix|] == FabioUrlPrefix && r[|r| - 1] == '/'
    ensures NomadFabioRouteHostnameKey in request.deploymentProperties ==>
              r[|FabioUrlPrefix|..|r| - 1] == request.deploymentProperties[NomadFabioRouteHostnameKey]
    ensures NomadFabioRouteHostnameKey !in request.deploymentProperties ==>
              r[|FabioUrlPrefix|..|r| - 1] == deploymentId
  {
    var host := GetOrDefault(request.deploymentProperties, NomadFabioRouteHostnameKey, deploymentId);
    var r := FabioUrlPrefix + host + "/";
    assert r[|FabioUrlPrefix|..|r| - 1] == host;
    r
  }
}

=== FILE: java_strings.dfy ===
/** The java.lang.String, Integer and Boolean behaviour the deployer relies on,
    restricted to ASCII: indexOf/lastIndexOf, split with limit 0 and limit 2,
    char replacement, upper-casing, equalsIgnoreCase, Integer.parseInt,
    Integer.toString and Boolean.parseBoolean. */
module JavaStrings {
  import opened Results

  /** Java's `int`. */
  type Int32 = x: int | -0x8000_0000 <= x < 0x8000_0000

  predicate InInt32Range(x: int) {
    -0x8000_0000 <= x < 0x8000_0000
  }

  // ---------------------------------------------------------------------------
  // Searching
  // ---------------------------------------------------------------------------

  /** String.indexOf(char): the first position of `c`, or -1. */
  function IndexOf(s: string, c: char): (r: int)
    ensures -1 <= r < |s|
    ensures r == -1 <==> c !in s
    ensures 0 <= r ==> s[r] == c && c !in s[..r]
  {
    if |s| == 0 then -1
    else if s[0] == c then 0
    else
      var k := IndexOf(s[1..], c);
      if k == -1 then -1
      else
        assert s[..k + 1] == [s[0]] + s[1..][..k];
        k + 1
  }

  /** String.lastIndexOf(char): the last position of `c`, or -1. */
  function LastIndexOf(s: string, c: char): (r: int)
    ensures -1 <= r < |s|
    ensures r == -1 <==> c !in s
    ensures 0 <= r ==> s[r] == c && c !in s[r + 1..]
  {
    if |s| == 0 then -1
    else if s[|s| - 1] == c then |s| - 1
    else
      assert s == s[..|s| - 1] + [s[|s| - 1]];
      var k := LastIndexOf(s[..|s| - 1], c);
      if k == -1 then -1
      else
        assert s[k + 1..] == s[..|s| - 1][k + 1..] + [s[|s| - 1]];
        k
  }

  // ---------------------------------------------------------------------------
  // Splitting
  // ---------------------------------------------------------------------------

  /** Every segment between occurrences of `c`, empty ones included. */
  function SplitAll(s: string, c: char): (parts: seq<string>)
    ensures |parts| >= 1
    ensures forall i :: 0 <= i < |parts| ==> c !in parts[i]
    ensures c !in s ==> parts == [s]
    decreases |s|
  {
    var i := IndexOf(s, c);
    if i == -1 then [s] else [s[..i]] + SplitAll(s[i + 1..], c)
  }

  /** Concatenates `parts` with `c` between neighbours. */
  function Join(parts: seq<string>, c: char): string
    requires |parts| >= 1
  {
    if |parts| == 1 then parts[0] else parts[0] + [c] + Join(parts[1..], c)
  }

  /** A string is its prefix, the character at `i`, and its suffix. */
  lemma Around(s: string, i: int)
    requires 0 <= i < |s|
    ensures s == s[..i] + [s[i]] + s[i + 1..]
  {
  }

  /** Join of a non-trivial sequence, one step unfolded. */
  lemma JoinCons(head: string, rest: seq<string>, c: char)
    requires |rest| >= 1
    ensures Join([head] + rest, c) == head + [c] + Join(rest, c)
  {
    assert ([head] + rest)[1..] == rest;
  }

  /** Joining the segments back restores the string. */
  lemma {:induction false} JoinSplitAll(s: string, c: char)
    ensures Join(SplitAll(s, c), c) == s
    decreases |s|
  {
    var i := IndexOf(s, c);
    if i == -1 {
      assert SplitAll(s, c) == [s];
    } else {
      var head, tail := s[..i], s[i + 1..];
      var rest := SplitAll(tail, c);
      assert SplitAll(s, c) == [head] + rest;
      JoinSplitAll(tail, c);
      JoinCons(head, rest, c);
      Around(s, i);
    }
  }

  /** Splitting a join of `c`-free parts gives the parts back. */
  lemma {:induction false} SplitAllJoin(parts: seq<string>, c: char)
    requires |parts| >= 1
    requires forall i :: 0 <= i < |parts| ==> c !in parts[i]
    ensures SplitAll(Join(parts, c), c) == parts
  {
    var s := Join(parts, c);
    if |parts| == 1 {
      assert s == parts[0] && c !in s;
    } else {
      var head, rest := parts[0], Join(parts[1..], c);
      assert s == head + [c] + rest;
      assert s[..|head|] == head;
      assert s[|head|] == c;
      assert IndexOf(s, c) == |head|;
      assert s[|head| + 1..] == rest;
      assert SplitAll(s, c) == [head] + SplitAll(rest, c);
      SplitAllJoin(parts[1..], c);
      assert parts == [head] + parts[1..];
    }
  }

  /** Removes the empty segments at the end of `parts`. */
  function DropTrailingEmpty(parts: seq<string>): (r: seq<string>)
    ensures r <= parts
    ensures |r| > 0 ==> r[|r| - 1] != ""
    ensures forall i :: |r| <= i < |parts| ==> parts[i] == ""
  {
    if |parts| == 0 || parts[|parts| - 1] != "" then parts
    else DropTrailingEmpty(parts[..|parts| - 1])
  }

  /** String.split(c) with limit 0: a string without `c` is returned whole
      (even when empty); otherwise every segment, minus trailing empty ones. */
  function Split(s: string, c: char): (r: seq<string>)
    ensures c !in s ==> r == [s]
    ensures c in s ==> r <= SplitAll(s, c)
    ensures c in s ==> |r| > 0 ==> r[|r| - 1] != ""
    ensures c in s ==> forall i :: |r| <= i < |SplitAll(s, c)| ==> SplitAll(s, c)[i] == ""
    ensures forall i :: 0 <= i < |r| ==> c !in r[i]
  {
    if c !in s then [s] else DropTrailingEmpty(SplitAll(s, c))
  }

  /** The first `c` after a `c`-free prefix is the one right after it. */
  lemma IndexOfAfterFree(a: string, c: char, b: string)
    requires c !in a
    ensures IndexOf(a + [c] + b, c) == |a|
  {
    var s := a + [c] + b;
    assert s[|a|] == c;
    assert s[..|a|] == a;
  }

  /** The last `c` before a `c`-free suffix is the one right before it. */
  lemma LastIndexOfBeforeFree(a: string, c: char, b: string)
    requires c !in b
    ensures LastIndexOf(a + [c] + b, c) == |a|
  {
    var s := a + [c] + b;
    assert s[|a|] == c;
    assert s[|a| + 1..] == b;
  }

  /** String.split(c, 2): at most two pieces, split at the first `c` only. */
  function SplitAtFirst(s: string, c: char): (r: seq<string>)
    ensures c !in s ==> r == [s]
    ensures c in s ==> |r| == 2 && c !in r[0] && s == r[0] + [c] + r[1]
  {
    var i := IndexOf(s, c);
    if i == -1 then [s] else [s[..i], s[i + 1..]]
  }

  /** Splitting `a c b` at its first `c`, when `a` has none, gives `a` and `b`. */
  lemma SplitAtFirstOf(a: string, c: char, b: string)
    requires c !in a
    ensures SplitAtFirst(a + [c] + b, c) == [a, b]
  {
    var s := a + [c] + b;
    IndexOfAfterFree(a, c, b);
    assert s[..|a|] == a;
    assert s[|a| + 1..] == b;
  }

  // ---------------------------------------------------------------------------
  // Character rewriting
  // ---------------------------------------------------------------------------

  /** String.replace(from, to) for single characters. */
  function ReplaceChar(s: string, from: char, to: char): (r: string)
    ensures |r| == |s|
    ensures forall i :: 0 <= i < |s| ==> r[i] == (if s[i] == from then to else s[i])
  {
    if |s| == 0 then "" else [if s[0] == from then to else s[0]] + ReplaceChar(s[1..], from, to)
  }

  /** After replacing, `from` no longer occurs, and replacing again changes nothing. */
  lemma ReplaceCharRemoves(s: string, from: char, to: char)
    requires from != to
    ensures from !in ReplaceChar(s, from, to)
    ensures ReplaceChar(ReplaceChar(s, from, to), from, to) == ReplaceChar(s, from, to)
  {
  }

  /** String.replaceAll(x, "") for a one-character literal pattern. */
  function RemoveChar(s: string, c: char): (r: string)
    ensures c !in r
    ensures |r| <= |s|
    ensures forall ch :: ch in r <==> ch in s && ch != c
  {
    if |s| == 0 then ""
    else
      var rest := RemoveChar(s[1..], c);
      assert forall ch :: ch in s <==> ch == s[0] || ch in s[1..];
      if s[0] == c then rest else [s[0]] + rest
  }

  /** A string without `c` is left alone. */
  lemma {:induction false} RemoveCharAbsent(s: string, c: char)
    requires c !in s
    ensures RemoveChar(s, c) == s
  {
    if |s| > 0 {
      RemoveCharAbsent(s[1..], c);
      assert s == [s[0]] + s[1..];
    }
  }

  /** Removing a character distributes over concatenation. */
  lemma {:induction false} RemoveCharConcat(a: string, b: string, c: char)
    ensures RemoveChar(a + b, c) == RemoveChar(a, c) + RemoveChar(b, c)
  {
    if |a| > 0 {
      RemoveCharConcat(a[1..], b, c);
      assert (a + b)[1..] == a[1..] + b;
    } else {
      assert a + b == b;
    }
  }

  predicate IsLowerAscii(ch: char) {
    'a' <= ch <= 'z'
  }

  /** Character.toUpperCase on ASCII. */
  function UpperChar(ch: char): (r: char)
    ensures !IsLowerAscii(r)
    ensures IsLowerAscii(ch) ==> r as int == ch as int - 32
    ensures !IsLowerAscii(ch) ==> r == ch
  {
    if IsLowerAscii(ch) then (ch as int - 32) as char else ch
  }

  /** String.toUpperCase on ASCII. */
  function ToUpperAscii(s: string): (r: string)
    ensures |r| == |s|
    ensures forall i :: 0 <= i < |s| ==> r[i] == UpperChar(s[i])
  {
    if |s| == 0 then "" else [UpperChar(s[0])] + ToUpperAscii(s[1..])
  }

  /** String.equalsIgnoreCase on ASCII. */
  predicate EqualsIgnoreCase(a: string, b: string) {
    |a| == |b| && forall i :: 0 <= i < |a| ==> UpperChar(a[i]) == UpperChar(b[i])
  }

  // ---------------------------------------------------------------------------
  // Decimal numbers
  // ---------------------------------------------------------------------------

  predicate IsDigit(ch: char) {
    '0' <= ch <= '9'
  }

  predicate AllDigits(s: string) {
    forall i :: 0 <= i < |s| ==> IsDigit(s[i])
  }

  /** The value of a string of decimal digits. */
  function DigitsValue(s: string): nat
    requires AllDigits(s)
    decreases |s|
  {
    if |s| == 0 then 0 else 10 * DigitsValue(s[..|s| - 1]) + (s[|s| - 1] as int - '0' as int)
  }

  function DigitChar(d: nat): (ch: char)
    requires d < 10
    ensures IsDigit(ch) && ch as int - '0' as int == d
  {
    ('0' as int + d) as char
  }

  /** Decimal rendering of a natural number (Integer.toString, Long's "%d"). */
  function NatToString(n: nat): (s: string)
    ensures |s| >= 1 && AllDigits(s)
  {
    if n < 10 then [DigitChar(n)] else NatToString(n / 10) + [DigitChar(n % 10)]
  }

  /** Reading back a rendered natural number gives the number. */
  lemma {:induction false} NatToStringValue(n: nat)
    ensures DigitsValue(NatToString(n)) == n
  {
    if n >= 10 {
      var s := NatToString(n);
      assert s[..|s| - 1] == NatToString(n / 10);
      NatToStringValue(n / 10);
    }
  }

  /** Distinct numbers render differently. */
  lemma NatToStringInjective(a: nat, b: nat)
    requires a != b
    ensures NatToString(a) != NatToString(b)
  {
    NatToStringValue(a);
    NatToStringValue(b);
  }

  /** Integer.toString. */
  function IntToString(n: int): (s: string)
    ensures |s| >= 1
  {
    if n < 0 then "-" + NatToString(-n) else NatToString(n)
  }

  /** Integer.parseInt in radix 10: an optional sign, then at least one
      digit, and a value inside the 32-bit range. */
  function ParseInt(s: string): (r: Result<Int32>)
    ensures r.Err? ==> r.error == NumberFormat(s)
    ensures r.Ok? ==> |s| >= 1 && (IsDigit(s[0]) || s[0] == '-' || s[0] == '+')
    ensures r.Ok? && AllDigits(s) ==> r.value == DigitsValue(s)
  {
    if |s| == 0 then Err(NumberFormat(s))
    else
      var digits := if s[0] == '-' || s[0] == '+' then s[1..] else s;
      if |digits| == 0 || !AllDigits(digits) then Err(NumberFormat(s))
      else
        var v: int := if s[0] == '-' then -(DigitsValue(digits) as int) else DigitsValue(digits);
        if InInt32Range(v) then Ok(v) else Err(NumberFormat(s))
  }

  /** Integer.parseInt(Integer.toString(n)) == n for every int. */
  lemma ParseIntToString(n: Int32)
    ensures ParseInt(IntToString(n)) == Ok(n)
  {
    var s := IntToString(n);
    var m: int := n;
    if m < 0 {
      var t := NatToString(-m);
      assert s == "-" + t && s[0] == '-' && s[1..] == t;
      NatToStringValue(-m);
      assert DigitsValue(t) == -m;
    } else {
      assert s == NatToString(n) && IsDigit(s[0]);
      NatToStringValue(n);
    }
  }

  // ---------------------------------------------------------------------------
  // Booleans
  // ---------------------------------------------------------------------------

  /** Boolean.parseBoolean: true exactly for a non-null "true" in any case. */
  predicate ParseBoolean(s: Option<string>) {
    s.Some? && EqualsIgnoreCase(s.value, "true")
  }

  /** Boolean.toString. */
  function BoolToString(b: bool): string {
    if b then "true" else "false"
  }

  /** Boolean.parseBoolean(Boolean.toString(b)) == b. */
  lemma ParseBooleanToString(b: bool)
    ensures ParseBoolean(Some(BoolToString(b))) == b
  {
  }

  // ---------------------------------------------------------------------------
  // Spring's StringUtils.commaDelimitedListToSet
  // ---------------------------------------------------------------------------

  /** Keeps the first occurrence of every element, in order (a LinkedHashSet). */
  function Dedup(xs: seq<string>): (r: seq<string>)
    ensures forall i, j :: 0 <= i < j < |r| ==> r[i] != r[j]
    ensures forall x :: x in r <==> x in xs
    ensures |r| <= |xs|
  {
    if |xs| == 0 then []
    else
      var p := Dedup(xs[..|xs| - 1]);
      assert xs == xs[..|xs| - 1] + [xs[|xs| - 1]];
      if xs[|xs| - 1] in p then p else p + [xs[|xs| - 1]]
  }

  /** The position of the first occurrence of `x` in `xs`. */
  function FirstIndex(xs: seq<string>, x: string): (i: nat)
    requires x in xs
    ensures i < |xs| && xs[i] == x
    ensures forall j :: 0 <= j < i ==> xs[j] != x
  {
    if xs[0] == x then 0 else 1 + FirstIndex(xs[1..], x)
  }

  /** Appending an element does not move the first occurrence of anything
      already present. */
  lemma FirstIndexPrefix(xs: seq<string>, x: string)
    requires |xs| > 0 && x in xs[..|xs| - 1]
    ensures FirstIndex(xs, x) == FirstIndex(xs[..|xs| - 1], x)
  {
  }

  /** Dedup lists the elements in the order of their first occurrence. */
  lemma {:induction false} DedupFirstOccurrenceOrder(xs: seq<string>)
    ensures forall i, j :: 0 <= i < j < |Dedup(xs)| ==> FirstIndex(xs, Dedup(xs)[i]) < FirstIndex(xs, Dedup(xs)[j])
    decreases |xs|
  {
    if |xs| > 0 {
      var n := |xs| - 1;
      var p := xs[..n];
      var d := Dedup(p);
      DedupFirstOccurrenceOrder(p);
      assert xs == p + [xs[n]];
      forall x | x in d
        ensures FirstIndex(xs, x) == FirstIndex(p, x) && FirstIndex(p, x) < n
      {
        FirstIndexPrefix(xs, x);
      }
      if xs[n] !in d {
        assert xs[n] !in p;
        assert FirstIndex(xs, xs[n]) == n;
        assert Dedup(xs) == d + [xs[n]];
      } else {
        assert Dedup(xs) == d;
      }
    }
  }

  /** commaDelimitedListToSet: absent or empty text gives no entries; otherwise
      every comma-separated segment, empty ones included, without repeats and
      in the order of first occurrence (the iteration order of the
      LinkedHashSet). */
  function CommaDelimitedListToSet(s: Option<string>): (r: seq<string>)
    ensures s.None? || s == Some("") ==> r == []
    ensures forall i, j :: 0 <= i < j < |r| ==> r[i] != r[j]
    ensures s.Some? && s.value != "" ==> forall x :: x in r <==> x in SplitAll(s.value, ',')
    ensures s.Some? && s.value != "" ==>
              forall i, j :: 0 <= i < j < |r| ==>
                FirstIndex(SplitAll(s.value, ','), r[i]) < FirstIndex(SplitAll(s.value, ','), r[j])
  {
    if s.None? || s.value == "" then []
    else
      DedupFirstOccurrenceOrder(SplitAll(s.value, ','));
      Dedup(SplitAll(s.value, ','))
  }
}

=== FILE: jobs.dfy ===
/** The job header and the task-group shell shared by every deployer. */
module Jobs {
  import opened Results
  import opened JavaStrings
  import opened Requests
  import opened Nomad
  import opened Resolution
  import opened KeyValueLists

  /** The node attribute holding the Java version the java driver found. */
  const JavaVersionAttribute := "${driver.java.version}"
  const AtLeast := ">="

  /** The minimum-Java constraint exactly as AbstractNomadDeployer builds it:
      the second setLTarget call overwrites the attribute with the version,
      and the right-hand side is never set. */
  function MinimumJavaConstraintsAsWritten(minimumJavaVersion: Option<string>): (cs: seq<Constraint>)
    ensures minimumJavaVersion.None? || minimumJavaVersion == Some("") ==> cs == []
    ensures minimumJavaVersion.Some? && minimumJavaVersion.value != "" ==>
              cs == [Constraint(Some(minimumJavaVersion.value), AtLeast, None)]
  {
    match minimumJavaVersion
    case Some(version) =>
      if version == "" then []
      else
        var c := Constraint(None, "", None);
        var c := c.(lTarget := Some(JavaVersionAttribute));
        var c := c.(operand := AtLeast);
        var c := c.(lTarget := Some(version));
        [c]
    case None => []
  }

  /** With minimum version "1.8" the job should require
      `${driver.java.version} >= 1.8`; the written code instead produces the
      constraint `1.8 >= <unset>`, which never consults the node's Java
      version. */
  lemma MinimumJavaConstraintMisplaced()
    ensures MinimumJavaConstraintsAsWritten(Some("1.8")) == [Constraint(Some("1.8"), AtLeast, None)]
    ensures MinimumJavaConstraintsAsWritten(Some("1.8")) != MinimumJavaConstraints(Some("1.8"))
  {
  }

  /** The minimum-Java constraint as intended: the node's Java version at
      least the configured one; none when no version is configured. */
  function MinimumJavaConstraints(minimumJavaVersion: Option<string>): (cs: seq<Constraint>)
  {
    match minimumJavaVersion
    case Some(version) =>
      if version == "" then [] else [Constraint(Some(JavaVersionAttribute), AtLeast, Some(version))]
    case None => []
  }

  /** StringUtils.isEmpty: absent or the empty text. */
  predicate IsEmptyText(s: Option<string>) {
    s.None? || s.value == ""
  }

  /** There is no constraint exactly when no version is configured; otherwise
      exactly one, requiring the node's Java version to be at least it. */
  lemma MinimumJavaConstraintsSpec(minimumJavaVersion: Option<string>)
    ensures MinimumJavaConstraints(minimumJavaVersion) == [] <==> IsEmptyText(minimumJavaVersion)
    ensures !IsEmptyText(minimumJavaVersion) ==>
              |MinimumJavaConstraints(minimumJavaVersion)| == 1 &&
              MinimumJavaConstraints(minimumJavaVersion)[0].lTarget == Some(JavaVersionAttribute) &&
              MinimumJavaConstraints(minimumJavaVersion)[0].operand == AtLeast &&
              MinimumJavaConstraints(minimumJavaVersion)[0].rTarget == minimumJavaVersion
  {
  }

  /** The written and the intended constraint agree on whether there is one
      and on the operand; the written one never has the configured version
      on its right-hand side. */
  lemma MinimumJavaConstraintsDiffer(minimumJavaVersion: Option<string>)
    ensures |MinimumJavaConstraintsAsWritten(minimumJavaVersion)| == |MinimumJavaConstraints(minimumJavaVersion)|
    ensures !IsEmptyText(minimumJavaVersion) ==>
              MinimumJavaConstraintsAsWritten(minimumJavaVersion)[0].operand == MinimumJavaConstraints(minimumJavaVersion)[0].operand &&
              MinimumJavaConstraintsAsWritten(minimumJavaVersion)[0].rTarget != MinimumJavaConstraints(minimumJavaVersion)[0].rTarget
  {
  }

  /** buildJobSpec without its task groups: the job id and name, the region,
      type and datacenters, the resolved priority, the metadata list and the
      minimum-Java constraint as the code builds it. */
  function BuildJobSpec(id: string, deployer: DeployerProperties, request: DeploymentRequest,
                        jobType: JobType): Result<Job>
  {
    var priority :- JobPriority(deployer, request);
    var meta :- CreateMeta(request);
    Ok(Job(id, id, deployer.region, jobType.Name(), deployer.datacenters, priority, meta,
           MinimumJavaConstraintsAsWritten(deployer.minimumJavaVersion), []))
  }

  /** The job spec fails exactly on a bad priority or a bad metadata list,
      the priority first; otherwise it is named by the id, typed by the job
      type and carries the resolved priority, the metadata and the minimum-Java
      constraint as the code builds it. */
  lemma BuildJobSpecSpec(id: string, deployer: DeployerProperties, request: DeploymentRequest, jobType: JobType)
    ensures var r := BuildJobSpec(id, deployer, request, jobType);
      r.Ok? <==> JobPriority(deployer, request).Ok? && CreateMeta(request).Ok?
    ensures var r := BuildJobSpec(id, deployer, request, jobType);
      JobPriority(deployer, request).Err? ==> r == Err(JobPriority(deployer, request).error)
    ensures var r := BuildJobSpec(id, deployer, request, jobType);
      r.Ok? ==>
        r.value.id == id && r.value.name == id &&
        r.value.region == deployer.region && r.value.datacenters == deployer.datacenters &&
        (jobType == Service ==> r.value.jobType == "service") &&
        (jobType == Batch ==> r.value.jobType == "batch") &&
        (NomadJobPriorityKey !in request.deploymentProperties ==> r.value.priority == deployer.priority) &&
        (NomadJobPriorityKey in request.deploymentProperties ==>
           Ok(r.value.priority) == ParseInt(request.deploymentProperties[NomadJobPriorityKey])) &&
        Ok(r.value.meta) == CreateMeta(request) &&
        r.value.constraints == MinimumJavaConstraintsAsWritten(deployer.minimumJavaVersion) &&
        r.value.taskGroups == []
  {
  }

  /** buildTaskGroup without its tasks: named by the id, the given count, the
      deployer's restart policy (times converted to nanoseconds) and the
      resolved ephemeral disk. */
  function BuildTaskGroup(id: string, request: DeploymentRequest, deployer: DeployerProperties,
                          count: Int32, ext: Externals): Result<TaskGroup>
  {
    var sticky := EphemeralDiskSticky(deployer, request);
    var migrate := EphemeralDiskMigrate(deployer, request);
    var size :- EphemeralDiskSize(deployer, request);
    var restart := RestartPolicy(ext.milliToNanoseconds(deployer.restartPolicyDelay),
                                 ext.milliToNanoseconds(deployer.restartPolicyInterval),
                                 deployer.restartPolicyAttempts, deployer.restartPolicyMode);
    Ok(TaskGroup(id, count, restart, EphemeralDisk(sticky, migrate, size), []))
  }

  /** The group fails only on a bad disk size; otherwise it has the given
      name and count, the restart times in nanoseconds, copies the restart
      attempts and mode, and takes each
      disk setting from the request when present and from the deployer
      otherwise. */
  lemma BuildTaskGroupSpec(id: string, request: DeploymentRequest, deployer: DeployerProperties, count: Int32, ext: Externals)
    ensures var r := BuildTaskGroup(id, request, deployer, count, ext);
      r.Ok? <==> EphemeralDiskSize(deployer, request).Ok?
    ensures var r := BuildTaskGroup(id, request, deployer, count, ext);
      r.Ok? ==>
        r.value.name == id && r.value.count == count && r.value.tasks == [] &&
        r.value.restartPolicy.delay == ext.milliToNanoseconds(deployer.restartPolicyDelay) &&
        r.value.restartPolicy.interval == ext.milliToNanoseconds(deployer.restartPolicyInterval) &&
        r.value.restartPolicy.attempts == deployer.restartPolicyAttempts &&
        r.value.restartPolicy.mode == deployer.restartPolicyMode &&
        (NomadEphemeralDiskStickyKey !in request.deploymentProperties ==>
           r.value.ephemeralDisk.sticky == deployer.ephemeralDiskSticky) &&
        (NomadEphemeralDiskStickyKey in request.deploymentProperties ==>
           (r.value.ephemeralDisk.sticky <==> EqualsIgnoreCase(request.deploymentProperties[NomadEphemeralDiskStickyKey], "true"))) &&
        (NomadEphemeralDiskMigrateKey !in request.deploymentProperties ==>
           r.value.ephemeralDisk.migrate == deployer.ephemeralDiskMigrate) &&
        (NomadEphemeralDiskMigrateKey in request.deploymentProperties ==>
           (r.value.ephemeralDisk.migrate <==> EqualsIgnoreCase(request.deploymentProperties[NomadEphemeralDiskMigrateKey], "true"))) &&
        (NomadEphemeralDiskSizeKey !in request.deploymentProperties ==>
           r.value.ephemeralDisk.sizeMb == deployer.ephemeralDiskSize) &&
        (NomadEphemeralDiskSizeKey in request.deploymentProperties ==>
           Ok(r.value.ephemeralDisk.sizeMb) == ParseInt(request.deploymentProperties[NomadEphemeralDiskSizeKey]))
  {
  }

  /** The task launchers' buildTaskGroup: the base group with a restart
      policy that fails after a single attempt. */
  function LauncherTaskGroup(id: string, request: DeploymentRequest, deployer: DeployerProperties,
                             count: Int32, ext: Externals): Result<TaskGroup>
  {
    var group :- BuildTaskGroup(id, request, deployer, count, ext);
    Ok(group.(restartPolicy := group.restartPolicy.(mode := "fail", attempts := 1)))
  }

  /** Whatever the deployer's restart settings, a launched task's group fails
      after one attempt; everything else is as in the base group. */
  lemma LauncherTaskGroupSpec(id: string, request: DeploymentRequest, deployer: DeployerProperties, count: Int32, ext: Externals)
    ensures var r := LauncherTaskGroup(id, request, deployer, count, ext);
      var base := BuildTaskGroup(id, request, deployer, count, ext);
      r.Ok? <==> base.Ok?
    ensures var r := LauncherTaskGroup(id, request, deployer, count, ext);
      var base := BuildTaskGroup(id, request, deployer, count, ext);
      r.Ok? ==>
        r.value.restartPolicy.mode == "fail" && r.value.restartPolicy.attempts == 1 &&
        r.value.restartPolicy.delay == base.value.restartPolicy.delay &&
        r.value.restartPolicy.interval == base.value.restartPolicy.interval &&
        r.value.name == base.value.name && r.value.count == base.value.count &&
        r.value.ephemeralDisk == base.value.ephemeralDisk
  {
  }
}

=== FILE: key_value_lists.dfy ===
/** The `KEY=VAL,KEY=VAL` lists read from the job-metadata and the
    environment-variable deployment properties. */
module KeyValueLists {
  import opened Results
  import opened JavaStrings
  import opened Requests

  /** One entry split at its first `=`; without one it is malformed. */
  datatype Declaration = Malformed(text: string) | Declared(key: string, value: string)

  /** split("=", 2) of one entry, and the length check that follows it. */
  function ParseDeclaration(entry: string): (d: Declaration)
    ensures d.Malformed? <==> '=' !in entry
    ensures d.Malformed? ==> d.text == entry
    ensures d.Declared? ==> '=' !in d.key && entry == d.key + "=" + d.value
  {
    var parts := SplitAtFirst(entry, '=');
    if |parts| == 2 then Declared(parts[0], parts[1]) else Malformed(entry)
  }

  /** Every entry parsed. */
  function ParseDeclarations(entries: seq<string>): (ds: seq<Declaration>)
    ensures |ds| == |entries|
    ensures forall i :: 0 <= i < |entries| ==> ds[i] == ParseDeclaration(entries[i])
  {
    seq(|entries|, i requires 0 <= i < |entries| => ParseDeclaration(entries[i]))
  }

  /** No later declaration has the same key as declaration `i`. */
  predicate LastWithKey(ds: seq<Declaration>, i: int)
    requires 0 <= i < |ds| && ds[i].Declared?
  {
    forall j :: i < j < |ds| && ds[j].Declared? ==> ds[j].key != ds[i].key
  }

  /** Puts every declaration into a map, left to right, so a later duplicate
      key overwrites an earlier one; the first malformed entry fails. */
  function PutAll(ds: seq<Declaration>, what: string): (r: Result<map<string, string>>)
    ensures r.Ok? <==> forall i :: 0 <= i < |ds| ==> ds[i].Declared?
    ensures r.Err? ==> exists i :: 0 <= i < |ds| && ds[i].Malformed? && r.error == InvalidDeclaration(what, ds[i].text)
    decreases |ds|
  {
    if |ds| == 0 then Ok(map[])
    else
      var n := |ds| - 1;
      var m :- PutAll(ds[..n], what);
      assert forall i :: 0 <= i < n ==> ds[i] == ds[..n][i];
      match ds[n]
      case Malformed(text) => Err(InvalidDeclaration(what, text))
      case Declared(key, value) => Ok(m[key := value])
  }

  /** The failing entry is the first malformed one. */
  lemma {:induction false} PutAllFirstError(ds: seq<Declaration>, what: string)
    requires PutAll(ds, what).Err?
    ensures exists i :: 0 <= i < |ds| && ds[i].Malformed?
                        && PutAll(ds, what).error == InvalidDeclaration(what, ds[i].text)
                        && forall j :: 0 <= j < i ==> ds[j].Declared?
    decreases |ds|
  {
    var n := |ds| - 1;
    var prefix := ds[..n];
    assert forall j :: 0 <= j < n ==> ds[j] == prefix[j];
    if PutAll(prefix, what).Err? {
      PutAllFirstError(prefix, what);
    }
  }

  /** The keys of the map are exactly the keys of the declarations. */
  lemma {:induction false} PutAllKeys(ds: seq<Declaration>, what: string)
    requires PutAll(ds, what).Ok?
    ensures forall k :: k in PutAll(ds, what).value <==>
                          exists i :: 0 <= i < |ds| && ds[i].Declared? && ds[i].key == k
    decreases |ds|
  {
    if |ds| > 0 {
      var n := |ds| - 1;
      var prefix := ds[..n];
      PutAllKeys(prefix, what);
      assert forall i :: 0 <= i < n ==> ds[i] == prefix[i];
      assert PutAll(ds, what).value == PutAll(prefix, what).value[ds[n].key := ds[n].value];
    }
  }

  /** Each key maps to the value of the last declaration carrying it. */
  lemma {:induction false} PutAllLastWins(ds: seq<Declaration>, what: string, i: int)
    requires PutAll(ds, what).Ok?
    requires 0 <= i < |ds| && ds[i].Declared? && LastWithKey(ds, i)
    ensures ds[i].key in PutAll(ds, what).value
    ensures PutAll(ds, what).value[ds[i].key] == ds[i].value
    decreases |ds|
  {
    var n := |ds| - 1;
    var prefix := ds[..n];
    assert PutAll(ds, what).value == PutAll(prefix, what).value[ds[n].key := ds[n].value];
    if i < n {
      assert forall j :: 0 <= j < n ==> ds[j] == prefix[j];
      assert LastWithKey(prefix, i);
      PutAllLastWins(prefix, what, i);
    }
  }

  /** The entries of a `KEY=VAL,...` list put into a map. */
  function PutEntries(entries: seq<string>, what: string): (r: Result<map<string, string>>)
    ensures r.Ok? <==> forall i :: 0 <= i < |entries| ==> '=' in entries[i]
  {
    PutAll(ParseDeclarations(entries), what)
  }

  /** Parses an optional `KEY=VAL,...` property: absent gives an empty map,
      entries come from String.split(",") and split at their first `=`. */
  function ParseKeyValueList(value: Option<string>, what: string): (r: Result<map<string, string>>)
    ensures value.None? ==> r == Ok(map[])
    ensures value.Some? ==> r == PutEntries(Split(value.value, ','), what)
  {
    match value
    case None => Ok(map[])
    case Some(text) => PutEntries(Split(text, ','), what)
  }

  /** createMeta. The ensures only connects it to the list parser;
      ParseKeyValueListContents says what the resulting map holds. */
  function CreateMeta(request: DeploymentRequest): (r: Result<map<string, string>>)
    ensures NomadMetaKey !in request.deploymentProperties ==> r == Ok(map[])
    ensures NomadMetaKey in request.deploymentProperties ==>
              r == PutEntries(Split(request.deploymentProperties[NomadMetaKey], ','), "meta value")
  {
    ParseKeyValueList(Get(request.deploymentProperties, NomadMetaKey), "meta value")
  }

  /** getAppEnvironmentVariables. The ensures only connects it to the list
      parser; ParseKeyValueListContents says what the resulting map holds. */
  function GetAppEnvironmentVariables(request: DeploymentRequest): (r: Result<map<string, string>>)
    ensures NomadEnvironmentVariablesKey !in request.deploymentProperties ==> r == Ok(map[])
    ensures NomadEnvironmentVariablesKey in request.deploymentProperties ==>
              r == PutEntries(Split(request.deploymentProperties[NomadEnvironmentVariablesKey], ','), "environment variable")
  {
    ParseKeyValueList(Get(request.deploymentProperties, NomadEnvironmentVariablesKey), "environment variable")
  }

  /** What a present `KEY=VAL,...` property yields, in terms of its
      comma-separated entries: it fails exactly when some entry has no `=`,
      the first such entry being the one reported; otherwise its keys are
      exactly the entries' keys and each key holds the value of the last
      entry declaring it. */
  lemma ParseKeyValueListContents(text: string, what: string)
    ensures var r := ParseKeyValueList(Some(text), what);
      var ds := ParseDeclarations(Split(text, ','));
      r.Err? ==> exists i :: 0 <= i < |ds| && ds[i].Malformed? && r.error == InvalidDeclaration(what, ds[i].text) &&
                             forall j :: 0 <= j < i ==> ds[j].Declared?
    ensures var r := ParseKeyValueList(Some(text), what);
      var ds := ParseDeclarations(Split(text, ','));
      r.Ok? ==> forall k :: k in r.value <==> exists i :: 0 <= i < |ds| && ds[i].Declared? && ds[i].key == k
    ensures var r := ParseKeyValueList(Some(text), what);
      var ds := ParseDeclarations(Split(text, ','));
      r.Ok? ==> forall i :: 0 <= i < |ds| && ds[i].Declared? && LastWithKey(ds, i) ==>
                  ds[i].key in r.value && r.value[ds[i].key] == ds[i].value
  {
    var ds := ParseDeclarations(Split(text, ','));
    assert ParseKeyValueList(Some(text), what) == PutAll(ds, what);
    if PutAll(ds, what).Err? {
      PutAllFirstError(ds, what);
    } else {
      PutAllKeys(ds, what);
      forall i | 0 <= i < |ds| && ds[i].Declared? && LastWithKey(ds, i)
        ensures ds[i].key in PutAll(ds, what).value && PutAll(ds, what).value[ds[i].key] == ds[i].value
      {
        PutAllLastWins(ds, what, i);
      }
    }
  }

  /** A single `key=value` entry is the one-entry map; the value may contain `=`. */
  lemma SingleEntry(key: string, value: string, what: string)
    requires ',' !in key && '=' !in key && ',' !in value
    ensures ParseKeyValueList(Some(key + "=" + value), what) == Ok(map[key := value])
  {
    var entry := key + "=" + value;
    NoCommaEntry(key, value);
    assert Split(entry, ',') == [entry];
    assert ParseDeclarations([entry]) == [Declared(key, value)];
    PutAllOne(Declared(key, value), what);
  }

  /** One declaration gives the one-entry map. */
  lemma PutAllOne(d: Declaration, what: string)
    requires d.Declared?
    ensures PutAll([d], what) == Ok(map[d.key := d.value])
  {
    assert [d][..0] == [];
  }

  /** Two declarations give the map of the first updated by the second. */
  lemma PutAllTwo(d1: Declaration, d2: Declaration, what: string)
    requires d1.Declared? && d2.Declared?
    ensures PutAll([d1, d2], what) == Ok(map[d1.key := d1.value][d2.key := d2.value])
  {
    PutAllOne(d1, what);
    assert [d1, d2][..1] == [d1];
  }

  /** Splitting two comma-free entries joined by a comma gives them back. */
  lemma SplitTwo(e1: string, e2: string)
    requires ',' !in e1 && ',' !in e2 && e2 != ""
    ensures Split(e1 + "," + e2, ',') == [e1, e2]
  {
    var text := e1 + "," + e2;
    assert text == Join([e1, e2], ',');
    SplitAllJoin([e1, e2], ',');
    assert text[|e1|] == ',';
  }

  /** `k1=v1,k2=v2` holds both entries; on a repeated key the second wins. */
  lemma TwoEntries(k1: string, v1: string, k2: string, v2: string, what: string)
    requires ',' !in k1 && '=' !in k1 && ',' !in v1
    requires ',' !in k2 && '=' !in k2 && ',' !in v2
    ensures ParseKeyValueList(Some((k1 + "=" + v1) + "," + (k2 + "=" + v2)), what) == Ok(map[k1 := v1][k2 := v2])
  {
    var e1, e2 := k1 + "=" + v1, k2 + "=" + v2;
    NoCommaEntry(k1, v1);
    NoCommaEntry(k2, v2);
    SplitTwo(e1, e2);
    ParseTwoDeclarations(e1, e2);
    PutAllTwo(Declared(k1, v1), Declared(k2, v2), what);
  }

  /** Parsing two entries parses each. */
  lemma ParseTwoDeclarations(e1: string, e2: string)
    ensures ParseDeclarations([e1, e2]) == [ParseDeclaration(e1), ParseDeclaration(e2)]
  {
  }


  /** An entry built from comma-free parts has no comma and splits back into them. */
  lemma NoCommaEntry(key: string, value: string)
    requires ',' !in key && '=' !in key && ',' !in value
    ensures ',' !in key + "=" + value
    ensures '=' in key + "=" + value
    ensures ParseDeclaration(key + "=" + value) == Declared(key, value)
  {
    var entry := key + "=" + value;
    assert entry == key + ['='] + value;
    assert entry[|key|] == '=';
    SplitAtFirstOf(key, '=', value);
    assert forall ch :: ch in entry <==> ch in key || ch == '=' || ch in value;
  }

  /** A trailing comma is ignored, as String.split drops trailing empty segments. */
  lemma TrailingCommaIgnored(key: string, value: string, what: string)
    requires ',' !in key && '=' !in key && ',' !in value
    ensures ParseKeyValueList(Some(key + "=" + value + ","), what) == Ok(map[key := value])
  {
    var entry := key + "=" + value;
    NoCommaEntry(key, value);
    assert entry + "," == Join([entry, ""], ',');
    SplitAllJoin([entry, ""], ',');
    assert (entry + ",")[|entry|] == ',';
    assert Split(entry + ",", ',') == [entry];
    assert ParseDeclarations([entry]) == [Declared(key, value)];
    PutAllOne(Declared(key, value), what);
  }

  /** The empty property text is one empty entry, which has no `=` and fails. */
  lemma EmptyTextFails(what: string)
    ensures ParseKeyValueList(Some(""), what) == Err(InvalidDeclaration(what, ""))
  {
    assert Split("", ',') == [""];
  }

  /** The unit-test scenario: meta `test=value` yields {test: value}. */
  lemma MetaTestScenario(request: DeploymentRequest)
    requires request.deploymentProperties == map[NomadMetaKey := "test=value"]
    ensures CreateMeta(request) == Ok(map["test" := "value"])
  {
    TestValueText();
    SingleEntry("test", "value", "meta value");
  }

  /** The test's literal is the entry `test=value`. */
  lemma TestValueText()
    ensures "test" + "=" + "value" == "test=value"
  {
    assert ("test" + "=" + "value")[4] == '=';
  }
}

=== FILE: lifecycle.dfy ===
/** The public operations: deploy, undeploy and status of an application;
    launch, cancel, cleanup, destroy and status of a task; each against the
    scheduler registry. */
module Lifecycle {
  import opened Results
  import opened Requests
  import opened Nomad
  import opened Identity
  import opened Jobs
  import opened Partitioning
  import opened Scheduler
  import Apps = AppStatuses
  import Tasks = TaskStatuses

  // ---------------------------------------------------------------------------
  // Job compilation
  // ---------------------------------------------------------------------------

  /** The job an app deployer registers: a service job named by the
      deployment id with the deployer's task groups. */
  function CompileAppJob(packaging: Packaging, indexing: bool, deploymentId: string, request: DeploymentRequest,
                         deployer: DeployerProperties, ext: Externals): Result<Job>
  {
    var job :- BuildJobSpec(deploymentId, deployer, request, Service);
    var groups :- AppTaskGroups(packaging, indexing, deploymentId, request, deployer, ext);
    Ok(job.(taskGroups := groups))
  }

  /** The job a task launcher registers: a batch job named by the task id with
      the single launcher group. */
  function CompileTaskJob(packaging: Packaging, taskId: string, request: DeploymentRequest,
                          deployer: DeployerProperties, ext: Externals): Result<Job>
  {
    var job :- BuildJobSpec(taskId, deployer, request, Batch);
    var groups :- LauncherTaskGroups(packaging, taskId, request, deployer, ext);
    Ok(job.(taskGroups := groups))
  }

  /** Apps run as service jobs and tasks as batch jobs, each keyed by the id
      it was compiled for. */
  lemma CompiledJobKinds(packaging: Packaging, indexing: bool, id: string, request: DeploymentRequest,
                         deployer: DeployerProperties, ext: Externals)
    ensures CompileAppJob(packaging, indexing, id, request, deployer, ext).Ok? ==>
              CompileAppJob(packaging, indexing, id, request, deployer, ext).value.id == id &&
              CompileAppJob(packaging, indexing, id, request, deployer, ext).value.jobType == "service"
    ensures CompileTaskJob(packaging, id, request, deployer, ext).Ok? ==>
              CompileTaskJob(packaging, id, request, deployer, ext).value.id == id &&
              CompileTaskJob(packaging, id, request, deployer, ext).value.jobType == "batch" &&
              |CompileTaskJob(packaging, id, request, deployer, ext).value.taskGroups| == 1
  {
    BuildJobSpecSpec(id, deployer, request, Service);
    BuildJobSpecSpec(id, deployer, request, Batch);
    if CompileTaskJob(packaging, id, request, deployer, ext).Ok? {
      LauncherGroupLayout(packaging, id, request, deployer, ext);
    }
  }

  // ---------------------------------------------------------------------------
  // App deployers
  // ---------------------------------------------------------------------------

  /** status of the app deployer for the packaging. */
  function AppStatusOf(packaging: Packaging, deploymentId: string, registry: Registry,
                       instanceState: Allocation -> Apps.DeploymentState): Apps.AppStatus
  {
    match packaging
    case Docker => Apps.DockerAppStatus(deploymentId, registry, instanceState)
    case Maven => Apps.MavenAppStatus(deploymentId, registry, instanceState)
  }

  /** The outcome of a deploy: the deployment id and the registry after it. */
  datatype Deployed = Deployed(deploymentId: string, registry: Registry)

  /** deploy: refuses an application whose state is anything but unknown,
      otherwise compiles the job and registers it. */
  function Deploy(packaging: Packaging, indexing: bool, request: DeploymentRequest, deployer: DeployerProperties,
                  ext: Externals, registry: Registry, instanceState: Allocation -> Apps.DeploymentState): Result<Deployed>
  {
    var id := CreateDeploymentId(request);
    if Apps.AggregateState(AppStatusOf(packaging, id, registry, instanceState)) != Apps.Unknown then
      Err(AlreadyDeployed(id))
    else
      var job :- CompileAppJob(packaging, indexing, id, request, deployer, ext);
      Ok(Deployed(id, Register(registry, job)))
  }

  /** deploy refuses with already deployed whenever the application's state
      is not unknown; from the unknown state it succeeds exactly when the job
      compiles, returns the deployment id and registers the compiled job
      under it, leaving every other job alone. */
  lemma DeployPrecondition(packaging: Packaging, indexing: bool, request: DeploymentRequest, deployer: DeployerProperties,
                           ext: Externals, registry: Registry, instanceState: Allocation -> Apps.DeploymentState)
    ensures var id := CreateDeploymentId(request);
      Apps.AggregateState(AppStatusOf(packaging, id, registry, instanceState)) != Apps.Unknown ==>
        Deploy(packaging, indexing, request, deployer, ext, registry, instanceState) == Err(AlreadyDeployed(id))
    ensures var id := CreateDeploymentId(request);
      Apps.AggregateState(AppStatusOf(packaging, id, registry, instanceState)) == Apps.Unknown ==>
        (Deploy(packaging, indexing, request, deployer, ext, registry, instanceState).Ok? <==>
         CompileAppJob(packaging, indexing, id, request, deployer, ext).Ok?)
    ensures var id := CreateDeploymentId(request);
      var r := Deploy(packaging, indexing, request, deployer, ext, registry, instanceState);
      r.Ok? ==>
        r.value.deploymentId == id &&
        CompileAppJob(packaging, indexing, id, request, deployer, ext).Ok? &&
        id in r.value.registry &&
        r.value.registry[id].job == CompileAppJob(packaging, indexing, id, request, deployer, ext).value &&
        r.value.registry.Keys == registry.Keys + {id} &&
        forall other :: other in registry && other != id ==> r.value.registry[other] == registry[other]
  {
    var id := CreateDeploymentId(request);
    if CompileAppJob(packaging, indexing, id, request, deployer, ext).Ok? {
      CompiledJobKinds(packaging, indexing, id, request, deployer, ext);
    }
  }

  /** A job the scheduler does not know is deployed whenever its job
      compiles; a dead job cannot be redeployed by the Docker deployer. */
  lemma DeployAbsentOrDead(indexing: bool, request: DeploymentRequest, deployer: DeployerProperties,
                           ext: Externals, registry: Registry, instanceState: Allocation -> Apps.DeploymentState)
    ensures var id := CreateDeploymentId(request);
      id !in registry ==>
        forall p: Packaging :: Deploy(p, indexing, request, deployer, ext, registry, instanceState).Ok? <==>
                               CompileAppJob(p, indexing, id, request, deployer, ext).Ok?
    ensures var id := CreateDeploymentId(request);
      id in registry && registry[id].status == Apps.Dead ==>
        Deploy(Docker, indexing, request, deployer, ext, registry, instanceState) == Err(AlreadyDeployed(id))
  {
    var id := CreateDeploymentId(request);
    Apps.AppStatusRules(id, registry, instanceState);
  }

  /** undeploy: the Docker deployer refuses an application whose state is
      unknown; the Maven deployer looks the job up and fails when there is
      none. Otherwise the job is deregistered. */
  function Undeploy(packaging: Packaging, deploymentId: string, registry: Registry,
                    instanceState: Allocation -> Apps.DeploymentState): Result<Registry>
  {
    match packaging
    case Docker =>
      if Apps.AggregateState(Apps.DockerAppStatus(deploymentId, registry, instanceState)) == Apps.Unknown then
        Err(NotDeployed(deploymentId))
      else Ok(Deregister(registry, deploymentId))
    case Maven =>
      if deploymentId !in registry then Err(JobNotFound(deploymentId))
      else Ok(Deregister(registry, deploymentId))
  }

  /** undeploy fails exactly in its precondition's case; otherwise the job is
      gone afterwards and every other job is untouched. */
  lemma UndeployPrecondition(packaging: Packaging, deploymentId: string, registry: Registry,
                             instanceState: Allocation -> Apps.DeploymentState)
    ensures packaging == Docker ==>
              (Undeploy(packaging, deploymentId, registry, instanceState).Err? <==>
               Apps.AggregateState(Apps.DockerAppStatus(deploymentId, registry, instanceState)) == Apps.Unknown)
    ensures packaging == Maven ==>
              (Undeploy(packaging, deploymentId, registry, instanceState).Err? <==> deploymentId !in registry)
    ensures Undeploy(packaging, deploymentId, registry, instanceState).Err? ==>
              deploymentId !in registry ||
              (packaging == Docker && Apps.AllIn(Apps.DockerAppStatus(deploymentId, registry, instanceState).instances, Apps.Unknown))
    ensures var r := Undeploy(packaging, deploymentId, registry, instanceState);
      r.Ok? ==> deploymentId in registry && r.value.Keys == registry.Keys - {deploymentId} &&
                forall other :: other in r.value ==> r.value[other] == registry[other]
  {
    Apps.AppStatusRules(deploymentId, registry, instanceState);
    Apps.AggregateStateSpec(Apps.DockerAppStatus(deploymentId, registry, instanceState));
  }

  // ---------------------------------------------------------------------------
  // Task launchers
  // ---------------------------------------------------------------------------

  /** The outcome of a launch: the task id and the registry after it. */
  datatype Launched = Launched(taskId: string, registry: Registry)

  /** launch: compiles the batch job for a fresh task id (the deployment id
      and the launch time in milliseconds) and registers it, without any
      status check. */
  function Launch(packaging: Packaging, request: DeploymentRequest, timestamp: nat, deployer: DeployerProperties,
                  ext: Externals, registry: Registry): Result<Launched>
  {
    var taskId := CreateTaskId(request, timestamp);
    var job :- CompileTaskJob(packaging, taskId, request, deployer, ext);
    Ok(Launched(taskId, Register(registry, job)))
  }

  /** A successful launch registers its job under the task id; until the
      scheduler allocates it the task is unknown. */
  lemma LaunchRegisters(packaging: Packaging, request: DeploymentRequest, timestamp: nat, deployer: DeployerProperties,
                        ext: Externals, registry: Registry)
    ensures var r := Launch(packaging, request, timestamp, deployer, ext, registry);
      r.Ok? ==>
        r.value.taskId == CreateTaskId(request, timestamp) &&
        r.value.taskId in r.value.registry &&
        r.value.registry[r.value.taskId].job.jobType == "batch" &&
        Tasks.TaskStatusOf(r.value.taskId, r.value.registry).state == Tasks.Unknown
  {
    var taskId := CreateTaskId(request, timestamp);
    CompiledJobKinds(packaging, false, taskId, request, deployer, ext);
  }

  /** cancel: deregisters the job when the scheduler has it, does nothing
      otherwise. */
  function Cancel(taskId: string, registry: Registry): (r: Registry)
    ensures taskId !in registry ==> r == registry
  {
    if taskId in registry then Deregister(registry, taskId) else registry
  }

  /** cleanup is cancel. */
  function Cleanup(taskId: string, registry: Registry): Registry {
    Cancel(taskId, registry)
  }

  /** destroy is cancel. */
  function Destroy(taskId: string, registry: Registry): Registry {
    Cancel(taskId, registry)
  }

  /** After cancel the task is unknown and every other job is untouched;
      cancelling twice is cancelling once, and cleanup and destroy do the
      same. */
  lemma CancelSpec(taskId: string, registry: Registry)
    ensures taskId !in Cancel(taskId, registry)
    ensures Tasks.TaskStatusOf(taskId, Cancel(taskId, registry)).state == Tasks.Unknown
    ensures forall other :: other in registry && other != taskId ==>
              other in Cancel(taskId, registry) && Cancel(taskId, registry)[other] == registry[other]
    ensures Cancel(taskId, Cancel(taskId, registry)) == Cancel(taskId, registry)
    ensures Cleanup(taskId, registry) == Cancel(taskId, registry) && Destroy(taskId, registry) == Cancel(taskId, registry)
  {
  }

  /** Two launches of the same request at different times register two jobs:
      the second does not replace the first. */
  lemma RelaunchKeepsEarlierTask(packaging: Packaging, request: DeploymentRequest, t1: nat, t2: nat,
                                 deployer: DeployerProperties, ext: Externals, registry: Registry)
    requires t1 != t2
    ensures var first := Launch(packaging, request, t1, deployer, ext, registry);
      first.Ok? ==>
        var second := Launch(packaging, request, t2, deployer, ext, first.value.registry);
        second.Ok? ==> first.value.taskId in second.value.registry && second.value.taskId != first.value.taskId
  {
    TaskIdsDistinct(request, t1, t2);
    LaunchRegisters(packaging, request, t1, deployer, ext, registry);
    if Launch(packaging, request, t1, deployer, ext, registry).Ok? {
      var first := Launch(packaging, request, t1, deployer, ext, registry).value;
      LaunchRegisters(packaging, request, t2, deployer, ext, first.registry);
      CompiledJobKinds(packaging, false, CreateTaskId(request, t2), request, deployer, ext);
    }
  }
}

=== FILE: nomad_model.dfy ===
/** The parts of Nomad's job specification the deployer fills in. */
module Nomad {
  import opened Results
  import opened JavaStrings

  datatype JobType = Service | Batch {
    /** JobTypes.name().toLowerCase() */
    function Name(): string {
      match this
      case Service => "service"
      case Batch => "batch"
    }
  }

  /** A placement constraint `lTarget operand rTarget`; an unset side is None. */
  datatype Constraint = Constraint(lTarget: Option<string>, operand: string, rTarget: Option<string>)

  datatype RestartPolicy = RestartPolicy(delay: int, interval: int, attempts: Int32, mode: string)

  datatype EphemeralDisk = EphemeralDisk(sticky: bool, migrate: bool, sizeMb: Int32)

  datatype Port = Port(value: Int32)

  datatype NetworkResource = NetworkResource(mbits: int, dynamicPorts: seq<Port>)

  datatype Resources = Resources(cpu: Int32, memoryMb: Int32, networks: seq<NetworkResource>)

  /** The driver-specific `config` map of a task; `args` is None when the
      key is not set. */
  datatype DriverConfig =
    | DockerConfig(image: string, volumes: seq<string>, dockerArgs: Option<seq<string>>)
    | JavaConfig(jarPath: string, jvmOptions: seq<string>, javaArgs: Option<seq<string>>)

  /** An artifact to fetch before the task starts; None for unset getter options. */
  datatype TaskArtifact = TaskArtifact(
    getterSource: string,
    relativeDest: string,
    getterOptions: Option<map<string, string>>)

  datatype LogConfig = LogConfig(maxFiles: int, maxFileSizeMb: int)

  datatype Task = Task(
    name: string,
    driver: string,
    config: DriverConfig,
    resources: Resources,
    env: map<string, string>,
    artifacts: seq<TaskArtifact>,
    logConfig: LogConfig)

  datatype TaskGroup = TaskGroup(
    name: string,
    count: Int32,
    restartPolicy: RestartPolicy,
    ephemeralDisk: EphemeralDisk,
    tasks: seq<Task>)

  datatype Job = Job(
    id: string,
    name: string,
    region: string,
    jobType: string,
    datacenters: seq<string>,
    priority: Int32,
    meta: map<string, string>,
    constraints: seq<Constraint>,
    taskGroups: seq<TaskGroup>)
}

=== FILE: partitioning.dfy ===
/** How an application becomes task groups: one group of `count` instances,
    or, for an indexed app on an indexing deployer, one single-instance group
    per index; and the single group of a launched task. */
module Partitioning {
  import opened Results
  import opened JavaStrings
  import opened Requests
  import opened Nomad
  import opened Resolution
  import opened Tasks
  import opened Jobs

  /** How the application is packaged, which picks the task builder. */
  datatype Packaging = Docker | Maven

  /** The app deployer's buildTask for the packaging. */
  function AppTask(packaging: Packaging, request: DeploymentRequest, id: string, deployer: DeployerProperties,
                   ext: Externals): Result<Task>
  {
    match packaging
    case Docker => DockerAppTask(request, id, deployer, ext)
    case Maven => MavenAppTask(request, id, deployer, ext)
  }

  /** The task launcher's buildTask for the packaging. */
  function LauncherTask(packaging: Packaging, request: DeploymentRequest, id: string, deployer: DeployerProperties,
                        ext: Externals): Result<Task>
  {
    match packaging
    case Docker => DockerLauncherTask(request, id, deployer, ext)
    case Maven => MavenLauncherTask(request, id, deployer, ext)
  }

  // ---------------------------------------------------------------------------
  // isIndexed
  // ---------------------------------------------------------------------------

  /** isIndexed of the Docker indexing deployer: Boolean.valueOf of the
      property, false when it is absent. */
  predicate IsIndexedDocker(request: DeploymentRequest) {
    match Get(request.deploymentProperties, IndexedKey)
    case Some(text) => ParseBoolean(Some(text))
    case None => false
  }

  /** isIndexed of the Maven indexing deployer: Boolean.parseBoolean of the
      property, which is false for an absent one. */
  predicate IsIndexedMaven(request: DeploymentRequest) {
    ParseBoolean(Get(request.deploymentProperties, IndexedKey))
  }

  /** Both deployers read the indexed property the same way: set, and
      `true` in any letter case. */
  lemma IsIndexedAgree(request: DeploymentRequest)
    ensures IsIndexedDocker(request) == IsIndexedMaven(request)
    ensures IsIndexedMaven(request) <==>
              IndexedKey in request.deploymentProperties &&
              EqualsIgnoreCase(request.deploymentProperties[IndexedKey], "true")
  {
  }

  function IsIndexed(packaging: Packaging, request: DeploymentRequest): bool {
    match packaging
    case Docker => IsIndexedDocker(request)
    case Maven => IsIndexedMaven(request)
  }

  // ---------------------------------------------------------------------------
  // Put-if-absent environment of an indexed instance
  // ---------------------------------------------------------------------------

  /** Map.putIfAbsent. */
  function PutIfAbsent(m: map<string, string>, key: string, value: string): (r: map<string, string>)
    ensures r.Keys == m.Keys + {key}
    ensures forall k :: k in m ==> r[k] == m[k]
    ensures key !in m ==> r[key] == value
  {
    if key in m then m else m[key := value]
  }

  /** The instance variables of index `index`: INSTANCE_INDEX and
      SPRING_APPLICATION_INDEX, and the group when the request has one. */
  function IndexedEnvironment(env: map<string, string>, index: nat, group: Option<string>): map<string, string> {
    var e := PutIfAbsent(env, InstanceIndexKey, NatToString(index));
    var e := PutIfAbsent(e, SpringApplicationIndex, NatToString(index));
    match group
    case Some(g) => PutIfAbsent(e, SpringApplicationGroup, g)
    case None => e
  }

  /** The instance variables never change a value already present, add
      nothing beyond the three instance keys, and provide the index (and the
      group) wherever the task left the key free. */
  lemma IndexedEnvironmentSpec(env: map<string, string>, index: nat, group: Option<string>)
    ensures var r := IndexedEnvironment(env, index, group);
      forall k :: k in env ==> k in r && r[k] == env[k]
    ensures var r := IndexedEnvironment(env, index, group);
      forall k :: k in r && k !in env ==>
        k == InstanceIndexKey || k == SpringApplicationIndex || (group.Some? && k == SpringApplicationGroup)
    ensures var r := IndexedEnvironment(env, index, group);
      InstanceIndexKey in r && SpringApplicationIndex in r &&
      (InstanceIndexKey !in env ==> r[InstanceIndexKey] == NatToString(index)) &&
      (SpringApplicationIndex !in env ==> r[SpringApplicationIndex] == NatToString(index))
    ensures var r := IndexedEnvironment(env, index, group);
      group.Some? ==> SpringApplicationGroup in r &&
                      (SpringApplicationGroup !in env ==> r[SpringApplicationGroup] == group.value)
    ensures var r := IndexedEnvironment(env, index, group);
      group.None? ==> (SpringApplicationGroup in r <==> SpringApplicationGroup in env)
  {
  }

  // ---------------------------------------------------------------------------
  // Task groups
  // ---------------------------------------------------------------------------

  /** `appId-index`, the name of an indexed group and of its task. */
  function IndexedId(appId: string, index: nat): (id: string)
    ensures |id| > |appId| && id[..|appId|] == appId
    ensures id[|appId|..] == "-" + NatToString(index)
  {
    var id := appId + "-" + NatToString(index);
    assert id[|appId|..] == "-" + NatToString(index);
    id
  }

  /** Distinct indexes name distinct groups. */
  lemma {:induction false} IndexedIdsDistinct(appId: string, i: nat, j: nat)
    requires i != j
    ensures IndexedId(appId, i) != IndexedId(appId, j)
  {
    NatToStringInjective(i, j);
    assert IndexedId(appId, i)[|appId|..][1..] == NatToString(i);
    assert IndexedId(appId, j)[|appId|..][1..] == NatToString(j);
  }

  /** One iteration of the indexed loop: a group of one named `appId-index`
      holding the task of the same name with the instance variables. */
  function IndexedGroup(packaging: Packaging, appId: string, index: nat, request: DeploymentRequest,
                        deployer: DeployerProperties, ext: Externals): Result<TaskGroup>
  {
    var id := IndexedId(appId, index);
    var group :- BuildTaskGroup(id, request, deployer, 1, ext);
    var task :- AppTask(packaging, request, id, deployer, ext);
    var env := IndexedEnvironment(task.env, index, Get(request.deploymentProperties, GroupKey));
    Ok(group.(tasks := [task.(env := env)]))
  }

  /** The groups for indexes 0 .. n-1 in order; the first failing index
      decides the error. */
  function IndexedGroups(packaging: Packaging, appId: string, n: nat, request: DeploymentRequest,
                         deployer: DeployerProperties, ext: Externals): Result<seq<TaskGroup>>
  {
    AllOk(seq(n, i requires 0 <= i < n => IndexedGroup(packaging, appId, i, request, deployer, ext)))
  }

  /** The indexed loop succeeds exactly when every iteration does, and then
      yields exactly n groups, group i being iteration i. */
  lemma IndexedGroupsContents(packaging: Packaging, appId: string, n: nat, request: DeploymentRequest,
                              deployer: DeployerProperties, ext: Externals)
    ensures IndexedGroups(packaging, appId, n, request, deployer, ext).Ok? <==>
            forall i :: 0 <= i < n ==> IndexedGroup(packaging, appId, i, request, deployer, ext).Ok?
    ensures var r := IndexedGroups(packaging, appId, n, request, deployer, ext);
      r.Ok? ==>
        |r.value| == n &&
        forall i :: 0 <= i < n ==> IndexedGroup(packaging, appId, i, request, deployer, ext) == Ok(r.value[i])
  {
    var rs := seq(n, i requires 0 <= i < n => IndexedGroup(packaging, appId, i, request, deployer, ext));
    AllOkContents(rs);
    assert forall i :: 0 <= i < n ==> rs[i] == IndexedGroup(packaging, appId, i, request, deployer, ext);
  }

  /** Each indexed group is a group of one named `appId-i`, with one task of
      the same name whose environment keeps every value the task set. */
  lemma IndexedGroupShape(packaging: Packaging, appId: string, index: nat, request: DeploymentRequest,
                          deployer: DeployerProperties, ext: Externals)
    ensures var r := IndexedGroup(packaging, appId, index, request, deployer, ext);
      r.Ok? ==>
        r.value.name == IndexedId(appId, index) && r.value.count == 1 && |r.value.tasks| == 1 &&
        r.value.tasks[0].name == IndexedId(appId, index)
    ensures var r := IndexedGroup(packaging, appId, index, request, deployer, ext);
      r.Ok? ==>
        var task := AppTask(packaging, request, IndexedId(appId, index), deployer, ext).value;
        forall k :: k in task.env ==> k in r.value.tasks[0].env && r.value.tasks[0].env[k] == task.env[k]
  {
    var id := IndexedId(appId, index);
    if IndexedGroup(packaging, appId, index, request, deployer, ext).Ok? {
      var task := AppTask(packaging, request, id, deployer, ext).value;
      BuildTaskGroupSpec(id, request, deployer, 1, ext);
      assert task.name == id by {
        match packaging
        case Docker => DockerAppTaskOutcome(request, id, deployer, ext);
        case Maven => MavenAppTaskOutcome(request, id, deployer, ext);
      }
      IndexedEnvironmentSpec(task.env, index, Get(request.deploymentProperties, GroupKey));
    }
  }

  /** An indexed app of count n has n single-instance groups with pairwise
      distinct names, group i named `appId-i`. */
  lemma IndexedGroupsLayout(packaging: Packaging, appId: string, n: nat, request: DeploymentRequest,
                            deployer: DeployerProperties, ext: Externals)
    ensures var r := IndexedGroups(packaging, appId, n, request, deployer, ext);
      r.Ok? ==>
        |r.value| == n &&
        (forall i :: 0 <= i < n ==> r.value[i].name == IndexedId(appId, i) && r.value[i].count == 1 &&
                                    |r.value[i].tasks| == 1 && r.value[i].tasks[0].name == r.value[i].name) &&
        (forall i, j :: 0 <= i < j < n ==> r.value[i].name != r.value[j].name)
  {
    IndexedGroupsContents(packaging, appId, n, request, deployer, ext);
    if IndexedGroups(packaging, appId, n, request, deployer, ext).Ok? {
      var gs := IndexedGroups(packaging, appId, n, request, deployer, ext).value;
      forall i | 0 <= i < n
        ensures gs[i].name == IndexedId(appId, i) && gs[i].count == 1 &&
                |gs[i].tasks| == 1 && gs[i].tasks[0].name == gs[i].name
      {
        IndexedGroupShape(packaging, appId, i, request, deployer, ext);
      }
      forall i, j | 0 <= i < j < n
        ensures gs[i].name != gs[j].name
      {
        IndexedIdsDistinct(appId, i, j);
      }
    }
  }

  /** The base buildTaskGroups: one group named by the id with the requested
      count, holding the one task. */
  function SingleTaskGroups(packaging: Packaging, appId: string, request: DeploymentRequest,
                            deployer: DeployerProperties, ext: Externals): Result<seq<TaskGroup>>
  {
    var count :- GetAppCount(request);
    var group :- BuildTaskGroup(appId, request, deployer, count, ext);
    var task :- AppTask(packaging, request, appId, deployer, ext);
    Ok([group.(tasks := [task])])
  }

  /** buildTaskGroups of an app deployer. With indexing, an indexed request
      gets one group per index below the count (none for a count below 1);
      any other request gets the single group. */
  function AppTaskGroups(packaging: Packaging, indexing: bool, appId: string, request: DeploymentRequest,
                         deployer: DeployerProperties, ext: Externals): Result<seq<TaskGroup>>
  {
    if indexing && IsIndexed(packaging, request) then
      var count :- GetAppCount(request);
      IndexedGroups(packaging, appId, if count < 0 then 0 else count as nat, request, deployer, ext)
    else
      SingleTaskGroups(packaging, appId, request, deployer, ext)
  }

  /** Without an index the app has a single group named by the id whose count
      is the requested one (1 when unset), holding the one task. */
  lemma SingleGroupLayout(packaging: Packaging, indexing: bool, appId: string, request: DeploymentRequest,
                          deployer: DeployerProperties, ext: Externals)
    requires !(indexing && IsIndexed(packaging, request))
    requires AppTaskGroups(packaging, indexing, appId, request, deployer, ext).Ok?
    ensures var gs := AppTaskGroups(packaging, indexing, appId, request, deployer, ext).value;
      |gs| == 1 && gs[0].name == appId && Ok(gs[0].count) == GetAppCount(request) &&
      gs[0].tasks == [AppTask(packaging, request, appId, deployer, ext).value]
    ensures CountKey !in request.deploymentProperties ==>
      AppTaskGroups(packaging, indexing, appId, request, deployer, ext).value[0].count == 1
  {
    var count := GetAppCount(request).value;
    BuildTaskGroupSpec(appId, request, deployer, count, ext);
  }

  /** With an index the groups follow the indexed layout for the requested
      count. */
  lemma IndexedAppLayout(packaging: Packaging, appId: string, request: DeploymentRequest,
                         deployer: DeployerProperties, ext: Externals)
    requires IsIndexed(packaging, request)
    requires AppTaskGroups(packaging, true, appId, request, deployer, ext).Ok?
    ensures GetAppCount(request).Ok?
    ensures var gs := AppTaskGroups(packaging, true, appId, request, deployer, ext).value;
      var count := GetAppCount(request).value;
      |gs| == (if count < 0 then 0 else count as int) &&
      forall i :: 0 <= i < |gs| ==> gs[i].name == IndexedId(appId, i) && gs[i].count == 1
  {
    var count := GetAppCount(request).value;
    IndexedGroupsLayout(packaging, appId, if count < 0 then 0 else count as nat, request, deployer, ext);
  }

  /** buildTaskGroups of a task launcher: one group of one, failing after a
      single attempt, holding the launcher task. */
  function LauncherTaskGroups(packaging: Packaging, taskId: string, request: DeploymentRequest,
                              deployer: DeployerProperties, ext: Externals): Result<seq<TaskGroup>>
  {
    var group :- LauncherTaskGroup(taskId, request, deployer, 1, ext);
    var task :- LauncherTask(packaging, request, taskId, deployer, ext);
    Ok([group.(tasks := [task])])
  }

  /** A launched task always runs as one group of one, named by the task id,
      that fails after a single attempt, whatever the count property and the
      deployer's restart settings say. */
  lemma LauncherGroupLayout(packaging: Packaging, taskId: string, request: DeploymentRequest,
                            deployer: DeployerProperties, ext: Externals)
    requires LauncherTaskGroups(packaging, taskId, request, deployer, ext).Ok?
    ensures var gs := LauncherTaskGroups(packaging, taskId, request, deployer, ext).value;
      |gs| == 1 && gs[0].name == taskId && gs[0].count == 1 &&
      gs[0].restartPolicy.mode == "fail" && gs[0].restartPolicy.attempts == 1 &&
      gs[0].tasks == [LauncherTask(packaging, request, taskId, deployer, ext).value]
  {
    LauncherTaskGroupSpec(taskId, request, deployer, 1, ext);
    BuildTaskGroupSpec(taskId, request, deployer, 1, ext);
  }
}

=== FILE: requests.dfy ===
/** The deployment request, the deployer's static configuration, and the
    property keys the deployer reads. */
module Requests {
  import opened Results
  import opened JavaStrings

  // ---------------------------------------------------------------------------
  // Property keys and fixed values
  // ---------------------------------------------------------------------------

  /** Keys of the Spring Cloud Deployer SPI (AppDeployer). */
  const GroupKey := "spring.cloud.deployer.group"
  const CountKey := "spring.cloud.deployer.count"
  const IndexedKey := "spring.cloud.deployer.indexed"
  const CpuKey := "spring.cloud.deployer.cpu"
  const MemoryKey := "spring.cloud.deployer.memory"
  const InstanceIndexKey := "INSTANCE_INDEX"

  /** Keys of the Nomad deployer (NomadDeploymentPropertyKeys). */
  const NomadMetaKey := "spring.cloud.deployer.nomad.meta"
  const NomadEnvironmentVariablesKey := "spring.cloud.deployer.nomad.environmentVariables"
  const NomadJobPriorityKey := "spring.cloud.deployer.nomad.job.priority"
  const NomadCpuKey := "spring.cloud.deployer.nomad.resources.cpu"
  const NomadMemoryKey := "spring.cloud.deployer.nomad.resources.memory"
  const NomadEphemeralDiskStickyKey := "spring.cloud.deployer.nomad.ephemeralDisk.sticky"
  const NomadEphemeralDiskMigrateKey := "spring.cloud.deployer.nomad.ephemeralDisk.migrate"
  const NomadEphemeralDiskSizeKey := "spring.cloud.deployer.nomad.ephemeralDisk.size"
  const NomadJavaOptsKey := "spring.cloud.deployer.nomad.javaOpts"
  const NomadFabioRouteHostnameKey := "spring.cloud.deployer.nomad.fabio.route.hostname"

  /** The application property naming the HTTP port. */
  const ServerPortKey := "server.port"
  /** Nomad's placeholder for the dynamically allocated port labelled `http`. */
  const NomadPortPlaceholder := "${NOMAD_PORT_http}"
  /** Nomad's placeholder for the allocation id. */
  const NomadAllocIdPlaceholder := "${NOMAD_ALLOC_ID}"
  const SpringApplicationJson := "SPRING_APPLICATION_JSON"
  const SpringApplicationGuid := "SPRING_CLOUD_APPLICATION_GUID"
  const SpringApplicationIndex := "SPRING_APPLICATION_INDEX"
  const SpringApplicationGroup := "SPRING_CLOUD_APPLICATION_GROUP"
  const DefaultExternalPort: Int32 := 8080

  // ---------------------------------------------------------------------------
  // Request
  // ---------------------------------------------------------------------------

  predicate UniqueKeys(props: seq<(string, string)>) {
    forall i, j :: 0 <= i < j < |props| ==> props[i].0 != props[j].0
  }

  /** An application definition's property map, in its iteration order. */
  type Properties = props: seq<(string, string)> | UniqueKeys(props)

  /** Map.get on the definition properties. */
  function Lookup(props: Properties, key: string): (r: Option<string>)
    ensures r.Some? <==> exists i :: 0 <= i < |props| && props[i].0 == key
    ensures forall i :: 0 <= i < |props| && props[i].0 == key ==> r == Some(props[i].1)
  {
    if |props| == 0 then None
    else if props[0].0 == key then Some(props[0].1)
    else
      var r := Lookup(props[1..], key);
      assert forall i :: 1 <= i < |props| ==> props[i] == props[1..][i - 1];
      r
  }

  /** The definition properties as a map (what Jackson serialises). */
  function ToMap(props: Properties): (m: map<string, string>)
    ensures forall i :: 0 <= i < |props| ==> props[i].0 in m && m[props[i].0] == props[i].1
    ensures forall k :: k in m ==> exists i :: 0 <= i < |props| && props[i].0 == k
  {
    map i | 0 <= i < |props| :: props[i].0 := props[i].1
  }

  datatype AppDefinition = AppDefinition(name: string, properties: Properties)

  /** What the deployer learns from the request's resource through library
      calls: the docker image reference (the URI's scheme-specific part,
      None when the URI cannot be obtained), the Maven artifact's file name,
      its fetchable URI and the MD5 digest of its content. */
  datatype Resource = Resource(
    schemeSpecificPart: Option<string>,
    filename: string,
    uri: string,
    md5: string)

  datatype DeploymentRequest = DeploymentRequest(
    definition: AppDefinition,
    resource: Resource,
    deploymentProperties: map<string, string>,
    commandlineArguments: seq<string>)

  // ---------------------------------------------------------------------------
  // Deployer configuration
  // ---------------------------------------------------------------------------

  datatype EntryPointStyle = Exec | Boot | Shell

  /** NomadDeployerProperties: the values the compilers read. The deployer
      environment variables are already converted to a map. */
  datatype DeployerProperties = DeployerProperties(
    region: string,
    datacenters: seq<string>,
    priority: Int32,
    minimumJavaVersion: Option<string>,
    restartPolicyDelay: int,
    restartPolicyInterval: int,
    restartPolicyAttempts: Int32,
    restartPolicyMode: string,
    ephemeralDiskSticky: bool,
    ephemeralDiskMigrate: bool,
    ephemeralDiskSize: Int32,
    cpu: string,
    memory: string,
    networkMBits: int,
    environmentVariables: map<string, string>,
    javaOpts: Option<string>,
    artifactDestination: string,
    loggingMaxFiles: int,
    loggingMaxFileSize: int)

  /** Results of helpers outside this model, supplied by the caller:
      the entry-point style chosen for the request, the docker volumes, the
      byte-size parser (None when it rejects its input), the JSON serialiser
      and the millisecond-to-nanosecond conversion. */
  datatype Externals = Externals(
    entryPointStyle: EntryPointStyle,
    volumes: seq<string>,
    toMebibytes: string -> Option<int>,
    toJson: map<string, string> -> string,
    milliToNanoseconds: int -> int)
}

=== FILE: resolution.dfy ===
/** Property precedence: values taken from the request's deployment
    properties when present and from the deployer configuration otherwise. */
module Resolution {
  import opened Results
  import opened JavaStrings
  import opened Requests

  /** getCpuResource: the generic CPU key, else the Nomad CPU key, else the
      deployer default, parsed as an int. */
  function GetCpuResource(deployer: DeployerProperties, request: DeploymentRequest): (r: Result<Int32>)
    ensures CpuKey in request.deploymentProperties ==>
              r == ParseInt(request.deploymentProperties[CpuKey])
    ensures CpuKey !in request.deploymentProperties && NomadCpuKey in request.deploymentProperties ==>
              r == ParseInt(request.deploymentProperties[NomadCpuKey])
    ensures CpuKey !in request.deploymentProperties && NomadCpuKey !in request.deploymentProperties ==>
              r == ParseInt(deployer.cpu)
  {
    var props := request.deploymentProperties;
    ParseInt(GetOrDefault(props, CpuKey, GetOrDefault(props, NomadCpuKey, deployer.cpu)))
  }

  /** The generic CPU key hides the Nomad key and the default: two requests
      that agree on it get the same CPU value whatever else they carry. */
  lemma CpuGenericKeyWins(deployer: DeployerProperties, deployer': DeployerProperties,
                          request: DeploymentRequest, request': DeploymentRequest)
    requires CpuKey in request.deploymentProperties && CpuKey in request'.deploymentProperties
    requires request.deploymentProperties[CpuKey] == request'.deploymentProperties[CpuKey]
    ensures GetCpuResource(deployer, request) == GetCpuResource(deployer', request')
  {
  }

  /** getCommonDeployerMemory: the generic memory key converted to mebibytes,
      failing when the conversion rejects the text or leaves the int range
      (Math.toIntExact). */
  function CommonDeployerMemory(request: DeploymentRequest, ext: Externals): (r: Option<Result<Int32>>)
    ensures r.None? <==> MemoryKey !in request.deploymentProperties
    ensures r.Some? ==> var text := request.deploymentProperties[MemoryKey];
              match ext.toMebibytes(text)
              case None => r.value == Err(MemoryFormat(text))
              case Some(mib) => r.value == if InInt32Range(mib) then Ok(mib) else Err(IntOverflow(mib))
  {
    match Get(request.deploymentProperties, MemoryKey)
    case None => None
    case Some(text) =>
      match ext.toMebibytes(text)
      case None => Some(Err(MemoryFormat(text)))
      case Some(mib) => Some(if InInt32Range(mib) then Ok(mib) else Err(IntOverflow(mib)))
  }

  /** getMemoryResource: the converted generic memory key, else the Nomad
      memory key, else the deployer default. */
  function GetMemoryResource(deployer: DeployerProperties, request: DeploymentRequest, ext: Externals): (r: Result<Int32>)
    ensures MemoryKey in request.deploymentProperties ==>
              r == CommonDeployerMemory(request, ext).value
    ensures MemoryKey !in request.deploymentProperties && NomadMemoryKey in request.deploymentProperties ==>
              r == ParseInt(request.deploymentProperties[NomadMemoryKey])
    ensures MemoryKey !in request.deploymentProperties && NomadMemoryKey !in request.deploymentProperties ==>
              r == ParseInt(deployer.memory)
  {
    match CommonDeployerMemory(request, ext)
    case Some(memory) => memory
    case None => ParseInt(GetOrDefault(request.deploymentProperties, NomadMemoryKey, deployer.memory))
  }

  /** A generic memory value the converter maps to `mib` mebibytes in range
      is the memory requested, e.g. "512Mi" read as 512. */
  lemma GenericMemoryInMebibytes(deployer: DeployerProperties, request: DeploymentRequest, ext: Externals, mib: Int32)
    requires MemoryKey in request.deploymentProperties
    requires ext.toMebibytes(request.deploymentProperties[MemoryKey]) == Some(mib as int)
    ensures GetMemoryResource(deployer, request, ext) == Ok(mib)
  {
  }

  /** getAppCount: the count property parsed, 1 when absent. */
  function GetAppCount(request: DeploymentRequest): (r: Result<Int32>)
    ensures CountKey !in request.deploymentProperties ==> r == Ok(1)
    ensures CountKey in request.deploymentProperties ==> r == ParseInt(request.deploymentProperties[CountKey])
  {
    match Get(request.deploymentProperties, CountKey)
    case None => Ok(1)
    case Some(count) => ParseInt(count)
  }

  /** configureExternalPort: the definition's server.port parsed, 8080 when absent. */
  function ConfigureExternalPort(request: DeploymentRequest): (r: Result<Int32>)
    ensures Lookup(request.definition.properties, ServerPortKey).None? ==> r == Ok(DefaultExternalPort)
    ensures Lookup(request.definition.properties, ServerPortKey).Some? ==>
              r == ParseInt(Lookup(request.definition.properties, ServerPortKey).value)
  {
    match Lookup(request.definition.properties, ServerPortKey)
    case None => Ok(DefaultExternalPort)
    case Some(port) => ParseInt(port)
  }

  /** The job priority: the priority property, else the deployer's priority
      rendered with Integer.toString and parsed back. */
  function JobPriority(deployer: DeployerProperties, request: DeploymentRequest): (r: Result<Int32>)
    ensures NomadJobPriorityKey !in request.deploymentProperties ==> r == Ok(deployer.priority)
    ensures NomadJobPriorityKey in request.deploymentProperties ==>
              r == ParseInt(request.deploymentProperties[NomadJobPriorityKey])
  {
    ParseIntToString(deployer.priority);
    ParseInt(GetOrDefault(request.deploymentProperties, NomadJobPriorityKey, IntToString(deployer.priority)))
  }

  /** The ephemeral-disk sticky flag: the property parsed as a boolean, else
      the deployer default rendered and parsed back. */
  function EphemeralDiskSticky(deployer: DeployerProperties, request: DeploymentRequest): (r: bool)
    ensures NomadEphemeralDiskStickyKey !in request.deploymentProperties ==> r == deployer.ephemeralDiskSticky
    ensures NomadEphemeralDiskStickyKey in request.deploymentProperties ==>
              (r <==> EqualsIgnoreCase(request.deploymentProperties[NomadEphemeralDiskStickyKey], "true"))
  {
    ParseBooleanToString(deployer.ephemeralDiskSticky);
    ParseBoolean(Some(GetOrDefault(request.deploymentProperties, NomadEphemeralDiskStickyKey,
                                   BoolToString(deployer.ephemeralDiskSticky))))
  }

  /** The ephemeral-disk migrate flag, resolved as the sticky flag is. */
  function EphemeralDiskMigrate(deployer: DeployerProperties, request: DeploymentRequest): (r: bool)
    ensures NomadEphemeralDiskMigrateKey !in request.deploymentProperties ==> r == deployer.ephemeralDiskMigrate
    ensures NomadEphemeralDiskMigrateKey in request.deploymentProperties ==>
              (r <==> EqualsIgnoreCase(request.deploymentProperties[NomadEphemeralDiskMigrateKey], "true"))
  {
    ParseBooleanToString(deployer.ephemeralDiskMigrate);
    ParseBoolean(Some(GetOrDefault(request.deploymentProperties, NomadEphemeralDiskMigrateKey,
                                   BoolToString(deployer.ephemeralDiskMigrate))))
  }

  /** The ephemeral-disk size: the property parsed, else the deployer default
      rendered and parsed back. */
  function EphemeralDiskSize(deployer: DeployerProperties, request: DeploymentRequest): (r: Result<Int32>)
    ensures NomadEphemeralDiskSizeKey !in request.deploymentProperties ==> r == Ok(deployer.ephemeralDiskSize)
    ensures NomadEphemeralDiskSizeKey in request.deploymentProperties ==>
              r == ParseInt(request.deploymentProperties[NomadEphemeralDiskSizeKey])
  {
    ParseIntToString(deployer.ephemeralDiskSize);
    ParseInt(GetOrDefault(request.deploymentProperties, NomadEphemeralDiskSizeKey, IntToString(deployer.ephemeralDiskSize)))
  }
}

=== FILE: results.dfy ===
/** Failure-compatible result type shared by every part of the deployer model.

    Each `Error` constructor stands for one exception the deployer can raise
    while translating a request or checking a lifecycle precondition.
 */
module Results {

  datatype Option<+T> = None | Some(value: T)

  datatype Error =
    /** Integer.parseInt / Integer.valueOf rejected its input (NumberFormatException). */
    | NumberFormat(input: string)
    /** A `KEY=VAL` list entry without `=` (Assert.isTrue in createMeta and getAppEnvironmentVariables). */
    | InvalidDeclaration(what: string, entry: string)
    /** The byte-size parser rejected the generic memory property. */
    | MemoryFormat(input: string)
    /** Math.toIntExact on a mebibyte count outside the 32-bit range. */
    | IntOverflow(value: int)
    /** The container resource has no URI (IllegalArgumentException in the docker buildTask). */
    | ResourceUnavailable
    /** `boot` entry-point style while SPRING_APPLICATION_JSON is already set. */
    | BootStyleConflict
    /** An argument with no `=` reached toSpringApplicationJson (substring with index -1). */
    | MissingSeparator(argument: string)
    /** Two arguments with the same key reached toSpringApplicationJson (Collectors.toMap). */
    | DuplicateKey(key: string)
    /** deploy found the application in a state other than unknown. */
    | AlreadyDeployed(id: string)
    /** undeploy found the application in the unknown state. */
    | NotDeployed(id: string)
    /** The Maven undeploy dereferenced a job the scheduler does not know. */
    | JobNotFound(id: string)

  datatype Result<+T> = Ok(value: T) | Err(error: Error) {

    predicate IsFailure() {
      Err?
    }

    function PropagateFailure<U>(): Result<U>
      requires Err?
    {
      Err(error)
    }

    function Extract(): T
      requires Ok?
    {
      value
    }
  }

  /** The values of a sequence of results, or the first error among them
      (a loop that stops at the first exception). */
  function AllOk<T>(rs: seq<Result<T>>): (r: Result<seq<T>>)
    decreases |rs|
  {
    if |rs| == 0 then Ok([])
    else
      var prefix :- AllOk(rs[..|rs| - 1]);
      var last :- rs[|rs| - 1];
      Ok(prefix + [last])
  }

  /** Success means every result succeeded, and the values come in order. */
  lemma {:induction false} AllOkContents<T>(rs: seq<Result<T>>)
    ensures AllOk(rs).Ok? <==> forall i :: 0 <= i < |rs| ==> rs[i].Ok?
    ensures AllOk(rs).Ok? ==> |AllOk(rs).value| == |rs| &&
                              forall i :: 0 <= i < |rs| ==> rs[i] == Ok(AllOk(rs).value[i])
    decreases |rs|
  {
    if |rs| > 0 {
      var prefix := rs[..|rs| - 1];
      AllOkContents(prefix);
      assert forall i :: 0 <= i < |prefix| ==> prefix[i] == rs[i];
    }
  }

  /** Failure reports the error of the first failing result. */
  lemma {:induction false} AllOkFirstError<T>(rs: seq<Result<T>>)
    requires AllOk(rs).Err?
    ensures exists i :: 0 <= i < |rs| && rs[i].Err? && AllOk(rs).error == rs[i].error &&
                        forall j :: 0 <= j < i ==> rs[j].Ok?
    decreases |rs|
  {
    var prefix := rs[..|rs| - 1];
    assert forall i :: 0 <= i < |prefix| ==> prefix[i] == rs[i];
    if AllOk(prefix).Err? {
      AllOkFirstError(prefix);
    } else {
      AllOkContents(prefix);
    }
  }

  /** Map.get on a deployment-property map: None plays the part of Java's null. */
  function Get(m: map<string, string>, key: string): (r: Option<string>)
    ensures r.Some? <==> key in m
    ensures r.Some? ==> r.value == m[key]
  {
    if key in m then Some(m[key]) else None
  }

  /** Map.getOrDefault. */
  function GetOrDefault(m: map<string, string>, key: string, default: string): (r: string)
    ensures key in m ==> r == m[key]
    ensures key !in m ==> r == default
  {
    if key in m then m[key] else default
  }
}

=== FILE: scheduler.dfy ===
/** The scheduler as the deployers see it: the registered jobs by id, each
    with the job status the scheduler reports and its allocations. */
module Scheduler {
  import opened Nomad

  /** An allocation summary: its id and the client status Nomad reports
      (`pending`, `running`, `failed`, `lost`, `complete`, `dead`, ...). */
  datatype Allocation = Allocation(id: string, clientStatus: string)

  /** A registered job, its status (`pending`, `running`, `dead`, ...) and
      its allocations in the order the scheduler lists them. */
  datatype JobRecord = JobRecord(job: Job, status: string, allocations: seq<Allocation>)

  type Registry = map<string, JobRecord>

  /** The status a freshly registered job has before any evaluation. */
  const Pending := "pending"

  /** Registering a job stores it under its id, pending and unallocated,
      replacing any job of the same id. */
  function Register(registry: Registry, job: Job): (r: Registry)
    ensures r.Keys == registry.Keys + {job.id}
    ensures r[job.id] == JobRecord(job, Pending, [])
    ensures forall id :: id in registry && id != job.id ==> r[id] == registry[id]
  {
    registry[job.id := JobRecord(job, Pending, [])]
  }

  /** Deregistering a job removes it. */
  function Deregister(registry: Registry, id: string): (r: Registry)
    ensures r.Keys == registry.Keys - {id}
    ensures forall other :: other in r ==> r[other] == registry[other]
  {
    map other | other in registry && other != id :: registry[other]
  }
}

=== FILE: task_status.dfy ===
/** The state of a launched task, read from its job's first allocation. */
module TaskStatuses {
  import opened Results
  import opened Scheduler

  datatype LaunchState = Launching | Running | Complete | Failed | Unknown

  datatype TaskStatus = TaskStatus(id: string, state: LaunchState)

  /** buildTaskStatus: the fixed client-status table; no allocation, or a
      status outside the table, is unknown. */
  function BuildTaskStatus(allocation: Option<Allocation>): LaunchState {
    match allocation
    case None => Unknown
    case Some(a) =>
      var s := a.clientStatus;
      if s == "pending" then Launching
      else if s == "running" then Running
      else if s == "failed" then Failed
      else if s == "lost" then Failed
      else if s == "complete" then Complete
      else if s == "dead" then Complete
      else Unknown
  }

  /** The client statuses that mean each state. */
  const StatusTable: map<string, LaunchState> := map[
    "pending" := Launching,
    "running" := Running,
    "failed" := Failed,
    "lost" := Failed,
    "complete" := Complete,
    "dead" := Complete]

  /** buildTaskStatus is the table lookup, unknown off the table. */
  lemma BuildTaskStatusTable(allocation: Option<Allocation>)
    ensures allocation.None? ==> BuildTaskStatus(allocation) == Unknown
    ensures allocation.Some? && allocation.value.clientStatus in StatusTable ==>
              BuildTaskStatus(allocation) == StatusTable[allocation.value.clientStatus]
    ensures allocation.Some? && allocation.value.clientStatus !in StatusTable ==>
              BuildTaskStatus(allocation) == Unknown
  {
  }

  /** Each state read backwards: which client statuses produce it. */
  lemma BuildTaskStatusInverse(a: Allocation)
    ensures BuildTaskStatus(Some(a)) == Failed <==> a.clientStatus == "failed" || a.clientStatus == "lost"
    ensures BuildTaskStatus(Some(a)) == Complete <==> a.clientStatus == "complete" || a.clientStatus == "dead"
    ensures BuildTaskStatus(Some(a)) == Launching <==> a.clientStatus == "pending"
    ensures BuildTaskStatus(Some(a)) == Running <==> a.clientStatus == "running"
    ensures BuildTaskStatus(Some(a)) == Unknown <==> a.clientStatus !in StatusTable
  {
  }

  /** The first allocation the scheduler lists, if any. */
  function FirstAllocation(allocations: seq<Allocation>): (r: Option<Allocation>)
    ensures r.None? <==> |allocations| == 0
    ensures r.Some? ==> r.value == allocations[0]
  {
    if |allocations| == 0 then None else Some(allocations[0])
  }

  /** status of the task launchers: unknown for an absent job, else the
      state of the job's first allocation. */
  function TaskStatusOf(taskId: string, registry: Registry): TaskStatus {
    if taskId !in registry then TaskStatus(taskId, Unknown)
    else TaskStatus(taskId, BuildTaskStatus(FirstAllocation(registry[taskId].allocations)))
  }

  /** The status names the task; an absent job or an unallocated one is
      unknown, and only the first allocation counts: later ones never change
      the state. */
  lemma TaskStatusOfSpec(taskId: string, registry: Registry)
    ensures TaskStatusOf(taskId, registry).id == taskId
    ensures taskId !in registry ==> TaskStatusOf(taskId, registry).state == Unknown
    ensures taskId in registry && registry[taskId].allocations == [] ==> TaskStatusOf(taskId, registry).state == Unknown
    ensures forall more: seq<Allocation> :: taskId in registry && |registry[taskId].allocations| > 0 ==>
              TaskStatusOf(taskId, registry[taskId := registry[taskId].(allocations := registry[taskId].allocations + more)]) ==
              TaskStatusOf(taskId, registry)
  {
  }
}

=== FILE: tasks.dfy ===
/** The four task builders: a Docker or a Maven (java driver) task, for a
    long-running application or for a one-shot task launch. Errors surface
    in the order the builders evaluate their inputs. */
module Tasks {
  import opened Results
  import opened JavaStrings
  import opened Requests
  import opened Nomad
  import opened Resolution
  import opened KeyValueLists
  import opened CommandLines
  import opened EntryPoints

  /** The docker image: the resource URI's scheme-specific part. */
  function Image(request: DeploymentRequest): (r: Result<string>)
    ensures r.Err? <==> request.resource.schemeSpecificPart.None?
    ensures r.Err? ==> r.error == ResourceUnavailable
    ensures r.Ok? ==> r.value == request.resource.schemeSpecificPart.value
  {
    match request.resource.schemeSpecificPart
    case None => Err(ResourceUnavailable)
    case Some(image) => Ok(image)
  }

  /** The log rotation settings every task carries. */
  function TaskLogConfig(deployer: DeployerProperties): LogConfig {
    LogConfig(deployer.loggingMaxFiles, deployer.loggingMaxFileSize)
  }

  /** The single network of an application task: the deployer's bandwidth and
      one dynamic port carrying the external port. */
  function HttpNetwork(deployer: DeployerProperties, port: Int32): NetworkResource {
    NetworkResource(deployer.networkMBits, [Port(port)])
  }

  /** `<artifact destination>/<file name>`. */
  function JarPath(deployer: DeployerProperties, request: DeploymentRequest): (path: string)
    ensures |path| == |deployer.artifactDestination| + 1 + |request.resource.filename|
    ensures path[..|deployer.artifactDestination|] == deployer.artifactDestination
    ensures path[|deployer.artifactDestination|..] == "/" + request.resource.filename
  {
    var path := deployer.artifactDestination + "/" + request.resource.filename;
    assert path[|deployer.artifactDestination|..] == "/" + request.resource.filename;
    path
  }

  /** The JVM options: the javaOpts property when present, else the deployer
      default, split at commas into a duplicate-free list (none at all when
      both are absent or the text is empty). */
  function JvmOptions(deployer: DeployerProperties, request: DeploymentRequest): (options: seq<string>)
    ensures NomadJavaOptsKey in request.deploymentProperties ==>
              options == CommaDelimitedListToSet(Some(request.deploymentProperties[NomadJavaOptsKey]))
    ensures NomadJavaOptsKey !in request.deploymentProperties ==>
              options == CommaDelimitedListToSet(deployer.javaOpts)
  {
    match Get(request.deploymentProperties, NomadJavaOptsKey)
    case Some(opts) => CommaDelimitedListToSet(Some(opts))
    case None => CommaDelimitedListToSet(deployer.javaOpts)
  }

  /** The request's environment-variable list overlaid by the deployer's
      environment variables (putAll in that order). */
  function TaskEnvironment(deployer: DeployerProperties, request: DeploymentRequest): (r: Result<map<string, string>>)
    ensures r.Ok? <==> GetAppEnvironmentVariables(request).Ok?
    ensures r.Err? ==> r == GetAppEnvironmentVariables(request)
    ensures r.Ok? ==> r.value.Keys == GetAppEnvironmentVariables(request).value.Keys + deployer.environmentVariables.Keys
    ensures r.Ok? ==> forall k :: k in deployer.environmentVariables ==> r.value[k] == deployer.environmentVariables[k]
    ensures r.Ok? ==> forall k :: k in GetAppEnvironmentVariables(request).value && k !in deployer.environmentVariables ==>
                        r.value[k] == GetAppEnvironmentVariables(request).value[k]
  {
    var appEnv :- GetAppEnvironmentVariables(request);
    Ok(appEnv + deployer.environmentVariables)
  }

  // ---------------------------------------------------------------------------
  // Docker
  // ---------------------------------------------------------------------------

  /** buildTask of the Docker app deployer. The command line for exec style
      is the app deployers' one, which binds the port. */
  function DockerAppTask(request: DeploymentRequest, deploymentId: string, deployer: DeployerProperties,
                         ext: Externals): Result<Task>
  {
    var image :- Image(request);
    var port :- ConfigureExternalPort(request);
    var cpu :- GetCpuResource(deployer, request);
    var memory :- GetMemoryResource(deployer, request, ext);
    var env := map[SpringApplicationGuid := NomadAllocIdPlaceholder] + deployer.environmentVariables;
    var setup :- ApplyEntryPoint(ext.entryPointStyle, env, request.definition.properties,
                                 AppArguments(request), ext.toJson);
    Ok(Task(deploymentId, "docker", DockerConfig(image, ext.volumes, setup.args),
            Resources(cpu, memory, [HttpNetwork(deployer, port)]), setup.env, [], TaskLogConfig(deployer)))
  }

  /** The Docker app task fails exactly when one of its inputs does, the
      first in evaluation order deciding the error; otherwise it runs the
      image on the resolved resources with one dynamic port. */
  lemma DockerAppTaskOutcome(request: DeploymentRequest, deploymentId: string, deployer: DeployerProperties, ext: Externals)
    ensures var r := DockerAppTask(request, deploymentId, deployer, ext);
      r.Ok? <==> (request.resource.schemeSpecificPart.Some? &&
                  ConfigureExternalPort(request).Ok? &&
                  GetCpuResource(deployer, request).Ok? &&
                  GetMemoryResource(deployer, request, ext).Ok? &&
                  !(ext.entryPointStyle == Boot && SpringApplicationJson in deployer.environmentVariables))
    ensures var r := DockerAppTask(request, deploymentId, deployer, ext);
      request.resource.schemeSpecificPart.None? ==> r == Err(ResourceUnavailable)
    ensures var r := DockerAppTask(request, deploymentId, deployer, ext);
      request.resource.schemeSpecificPart.Some? && ConfigureExternalPort(request).Err? ==>
        r == Err(ConfigureExternalPort(request).error)
    ensures var r := DockerAppTask(request, deploymentId, deployer, ext);
      r.Ok? ==>
        r.value.name == deploymentId && r.value.driver == "docker" &&
        r.value.config.DockerConfig? &&
        r.value.config.image == request.resource.schemeSpecificPart.value &&
        r.value.config.volumes == ext.volumes &&
        r.value.resources == Resources(GetCpuResource(deployer, request).value,
                                       GetMemoryResource(deployer, request, ext).value,
                                       [NetworkResource(deployer.networkMBits, [Port(ConfigureExternalPort(request).value)])])
  {
  }

  /** Under exec and boot style every deployer environment variable reaches
      the app task unchanged, and the instance GUID is bound to the
      allocation id unless the deployer overrides it; the environment is
      exactly that (plus the definition as JSON under boot), so the request's
      environment-variable property is never consulted. Exec passes the app
      command line. */
  lemma DockerAppTaskEnvironment(request: DeploymentRequest, deploymentId: string, deployer: DeployerProperties, ext: Externals)
    ensures var r := DockerAppTask(request, deploymentId, deployer, ext);
      r.Ok? && ext.entryPointStyle != Shell ==>
        forall k :: k in deployer.environmentVariables ==> k in r.value.env && r.value.env[k] == deployer.environmentVariables[k]
    ensures var r := DockerAppTask(request, deploymentId, deployer, ext);
      r.Ok? && ext.entryPointStyle != Shell && SpringApplicationGuid !in deployer.environmentVariables ==>
        SpringApplicationGuid in r.value.env && r.value.env[SpringApplicationGuid] == NomadAllocIdPlaceholder
    ensures var r := DockerAppTask(request, deploymentId, deployer, ext);
      r.Ok? && ext.entryPointStyle == Exec ==> r.value.config.dockerArgs == Some(AppArguments(request))
    ensures var r := DockerAppTask(request, deploymentId, deployer, ext);
      r.Ok? && ext.entryPointStyle == Boot ==>
        r.value.config.dockerArgs.None? &&
        SpringApplicationJson in r.value.env && r.value.env[SpringApplicationJson] == ext.toJson(ToMap(request.definition.properties))
    ensures var r := DockerAppTask(request, deploymentId, deployer, ext);
      r.Ok? && ext.entryPointStyle == Exec ==>
        r.value.env == map[SpringApplicationGuid := NomadAllocIdPlaceholder] + deployer.environmentVariables
    ensures var r := DockerAppTask(request, deploymentId, deployer, ext);
      r.Ok? && ext.entryPointStyle == Boot ==>
        r.value.env == (map[SpringApplicationGuid := NomadAllocIdPlaceholder] + deployer.environmentVariables)
                         [SpringApplicationJson := ext.toJson(ToMap(request.definition.properties))]
  {
    DockerAppTaskSetup(request, deploymentId, deployer, ext);
  }

  /** A built Docker app task takes its environment and arguments from the
      entry-point switch applied to the GUID entry overlaid by the deployer
      variables. */
  lemma DockerAppTaskSetup(request: DeploymentRequest, deploymentId: string, deployer: DeployerProperties, ext: Externals)
    ensures var r := DockerAppTask(request, deploymentId, deployer, ext);
      var setup := ApplyEntryPoint(ext.entryPointStyle,
                                   map[SpringApplicationGuid := NomadAllocIdPlaceholder] + deployer.environmentVariables,
                                   request.definition.properties, AppArguments(request), ext.toJson);
      r.Ok? ==> setup.Ok? && r.value.env == setup.value.env && r.value.config.dockerArgs == setup.value.args
  {
    var r := DockerAppTask(request, deploymentId, deployer, ext);
    if r.Ok? {
      assert Image(request).Ok?;
      assert ConfigureExternalPort(request).Ok?;
      assert GetCpuResource(deployer, request).Ok?;
      assert GetMemoryResource(deployer, request, ext).Ok?;
    }
  }

  /** buildTask of the Docker task launcher: no network, no volumes, the
      request's environment-variable list, and the launcher command line. */
  function DockerLauncherTask(request: DeploymentRequest, taskId: string, deployer: DeployerProperties,
                              ext: Externals): Result<Task>
  {
    var image :- Image(request);
    var cpu :- GetCpuResource(deployer, request);
    var memory :- GetMemoryResource(deployer, request, ext);
    var env :- TaskEnvironment(deployer, request);
    var setup :- ApplyEntryPoint(ext.entryPointStyle, env, request.definition.properties,
                                 LauncherArguments(request), ext.toJson);
    Ok(Task(taskId, "docker", DockerConfig(image, [], setup.args),
            Resources(cpu, memory, []), setup.env, [], TaskLogConfig(deployer)))
  }

  /** The Docker launcher task fails exactly when one of its inputs does;
      otherwise it runs the image with no network and no volumes, and under exec style its
      arguments are the properties followed by the request's arguments. */
  lemma DockerLauncherTaskOutcome(request: DeploymentRequest, taskId: string, deployer: DeployerProperties, ext: Externals)
    ensures var r := DockerLauncherTask(request, taskId, deployer, ext);
      r.Ok? <==> (request.resource.schemeSpecificPart.Some? &&
                  GetCpuResource(deployer, request).Ok? &&
                  GetMemoryResource(deployer, request, ext).Ok? &&
                  GetAppEnvironmentVariables(request).Ok? &&
                  !(ext.entryPointStyle == Boot &&
                    SpringApplicationJson in GetAppEnvironmentVariables(request).value + deployer.environmentVariables))
    ensures var r := DockerLauncherTask(request, taskId, deployer, ext);
      r.Ok? ==>
        r.value.name == taskId && r.value.driver == "docker" &&
        r.value.config.DockerConfig? &&
        r.value.config.image == request.resource.schemeSpecificPart.value &&
        r.value.config.volumes == [] &&
        r.value.resources.networks == [] &&
        (ext.entryPointStyle == Exec ==>
          r.value.config.dockerArgs == Some(LauncherArguments(request)) &&
          r.value.env == GetAppEnvironmentVariables(request).value + deployer.environmentVariables)
  {
  }

  // ---------------------------------------------------------------------------
  // Maven
  // ---------------------------------------------------------------------------

  /** The spellings replaceServerPortWithPort recognises, defined letter by
      letter: `server.port` in any letter case, the dot optionally written
      as `_` (so `SERVER_PORT` too). */
  predicate SpellsServerPort(v: string) {
    |v| == |ServerPortKey| &&
    forall i :: 0 <= i < |v| ==>
      if ServerPortKey[i] == '.' then v[i] == '.' || v[i] == '_'
      else UpperChar(v[i]) == UpperChar(ServerPortKey[i])
  }

  /** replaceServerPortWithPort: a value that reads `server.port` once every
      `_` is turned into `.`, ignoring case, becomes the port placeholder. */
  function ReplaceServerPortWithPort(value: string): string {
    if EqualsIgnoreCase(ReplaceChar(value, '_', '.'), ServerPortKey) then NomadPortPlaceholder else value
  }

  /** The recognised values are exactly the letter-by-letter spellings. */
  lemma {:induction false} ServerPortSpellings(value: string)
    ensures EqualsIgnoreCase(ReplaceChar(value, '_', '.'), ServerPortKey) <==> SpellsServerPort(value)
  {
    var replaced := ReplaceChar(value, '_', '.');
    if |value| == |ServerPortKey| {
      forall i | 0 <= i < |value|
        ensures UpperChar(replaced[i]) == UpperChar(ServerPortKey[i]) <==>
                (if ServerPortKey[i] == '.' then value[i] == '.' || value[i] == '_'
                 else UpperChar(value[i]) == UpperChar(ServerPortKey[i]))
      {
        assert replaced[i] == if value[i] == '_' then '.' else value[i];
        assert ServerPortKey[i] == '.' || 'a' <= ServerPortKey[i] <= 'z';
      }
    }
  }

  /** The value becomes the placeholder exactly when it spells server.port
      or already is the placeholder; any other value is kept. */
  lemma ReplaceServerPortWithPortSpec(value: string)
    ensures ReplaceServerPortWithPort(value) == NomadPortPlaceholder <==>
            SpellsServerPort(value) || value == NomadPortPlaceholder
    ensures !SpellsServerPort(value) ==> ReplaceServerPortWithPort(value) == value
  {
    ServerPortSpellings(value);
  }

  /** Replacing twice changes nothing more: the placeholder spells nothing. */
  lemma ReplaceServerPortWithPortIdempotent(value: string)
    ensures ReplaceServerPortWithPort(ReplaceServerPortWithPort(value)) == ReplaceServerPortWithPort(value)
  {
    ServerPortSpellings(value);
    ServerPortSpellings(NomadPortPlaceholder);
  }

  /** env.replaceAll over every value. */
  function ReplaceServerPortValues(env: map<string, string>): (r: map<string, string>)
    ensures r.Keys == env.Keys
  {
    map k | k in env :: ReplaceServerPortWithPort(env[k])
  }

  /** buildTask of the Maven app deployer: the jar fetched into the artifact
      destination with an MD5 checksum, one dynamic port, and the app command
      line handed over as SPRING_APPLICATION_JSON instead of arguments. */
  function MavenAppTask(request: DeploymentRequest, deploymentId: string, deployer: DeployerProperties,
                        ext: Externals): Result<Task>
  {
    var jarPath := JarPath(deployer, request);
    var jvmOptions := JvmOptions(deployer, request);
    var port :- ConfigureExternalPort(request);
    var cpu :- GetCpuResource(deployer, request);
    var memory :- GetMemoryResource(deployer, request, ext);
    var env :- TaskEnvironment(deployer, request);
    var json :- SpringApplicationJsonMap(request);
    var taskEnv := MavenEnvironment(env, ext.toJson(json));
    var artifact := TaskArtifact(request.resource.uri, deployer.artifactDestination,
                                 Some(map["checksum" := "md5:" + request.resource.md5]));
    Ok(Task(deploymentId, "java", JavaConfig(jarPath, jvmOptions, None),
            Resources(cpu, memory, [HttpNetwork(deployer, port)]), taskEnv, [artifact], TaskLogConfig(deployer)))
  }

  /** The Maven app task fails exactly when one of its inputs does, a
      command line that cannot become a map included; otherwise it runs the
      fetched jar with the resolved JVM options and no arguments. */
  lemma MavenAppTaskOutcome(request: DeploymentRequest, deploymentId: string, deployer: DeployerProperties, ext: Externals)
    ensures var r := MavenAppTask(request, deploymentId, deployer, ext);
      r.Ok? <==> (ConfigureExternalPort(request).Ok? &&
                  GetCpuResource(deployer, request).Ok? &&
                  GetMemoryResource(deployer, request, ext).Ok? &&
                  GetAppEnvironmentVariables(request).Ok? &&
                  Collectable(ParseAll(AppArguments(request))))
    ensures var r := MavenAppTask(request, deploymentId, deployer, ext);
      r.Ok? ==>
        r.value.name == deploymentId && r.value.driver == "java" &&
        r.value.config == JavaConfig(deployer.artifactDestination + "/" + request.resource.filename,
                                     JvmOptions(deployer, request), None) &&
        r.value.resources.networks == [NetworkResource(deployer.networkMBits, [Port(ConfigureExternalPort(request).value)])] &&
        r.value.artifacts == [TaskArtifact(request.resource.uri, deployer.artifactDestination,
                                           Some(map["checksum" := "md5:" + request.resource.md5]))]
  {
  }

  /** The Maven app environment: every value rewritten by
      replaceServerPortWithPort, then SPRING_APPLICATION_JSON set. */
  function MavenEnvironment(merged: map<string, string>, json: string): map<string, string> {
    ReplaceServerPortValues(merged)[SpringApplicationJson := json]
  }

  /** SPRING_APPLICATION_JSON is set whatever the merged variables held;
      every other variable keeps its key with its value port-rewritten, so no
      value left in it spells server.port. */
  lemma MavenEnvironmentSpec(merged: map<string, string>, json: string)
    ensures var env := MavenEnvironment(merged, json);
      env.Keys == merged.Keys + {SpringApplicationJson} &&
      env[SpringApplicationJson] == json &&
      (forall k :: k in merged && k != SpringApplicationJson ==> env[k] == ReplaceServerPortWithPort(merged[k])) &&
      (forall k :: k in env && k != SpringApplicationJson ==> !SpellsServerPort(env[k]))
  {
    var env := MavenEnvironment(merged, json);
    forall k | k in env && k != SpringApplicationJson
      ensures !SpellsServerPort(env[k])
    {
      ReplaceServerPortWithPortSpec(merged[k]);
      assert !SpellsServerPort(NomadPortPlaceholder);
    }
  }

  /** The Maven app task's environment is the merged environment rewritten
      and given SPRING_APPLICATION_JSON holding the command line as a map. */
  lemma MavenAppTaskEnvironment(request: DeploymentRequest, deploymentId: string, deployer: DeployerProperties, ext: Externals)
    ensures MavenAppTask(request, deploymentId, deployer, ext).Ok? ==>
              TaskEnvironment(deployer, request).Ok? && SpringApplicationJsonMap(request).Ok? &&
              MavenAppTask(request, deploymentId, deployer, ext).value.env ==
              MavenEnvironment(TaskEnvironment(deployer, request).value, ext.toJson(SpringApplicationJsonMap(request).value))
  {
    if MavenAppTask(request, deploymentId, deployer, ext).Ok? {
      assert ConfigureExternalPort(request).Ok?;
      assert GetCpuResource(deployer, request).Ok?;
      assert GetMemoryResource(deployer, request, ext).Ok?;
      assert TaskEnvironment(deployer, request).Ok?;
      assert SpringApplicationJsonMap(request).Ok?;
    }
  }


  /** buildTask of the Maven task launcher: the jar fetched without a
      checksum, no network, and the launcher command line as arguments. */
  function MavenLauncherTask(request: DeploymentRequest, taskId: string, deployer: DeployerProperties,
                             ext: Externals): Result<Task>
  {
    var jarPath := JarPath(deployer, request);
    var jvmOptions := JvmOptions(deployer, request);
    var cpu :- GetCpuResource(deployer, request);
    var memory :- GetMemoryResource(deployer, request, ext);
    var env :- TaskEnvironment(deployer, request);
    var artifact := TaskArtifact(request.resource.uri, deployer.artifactDestination, None);
    Ok(Task(taskId, "java", JavaConfig(jarPath, jvmOptions, Some(LauncherArguments(request))),
            Resources(cpu, memory, []), env, [artifact], TaskLogConfig(deployer)))
  }

  /** The Maven launcher task fails exactly when one of its inputs does;
      otherwise it passes the properties and the request's arguments on the
      command line and keeps the environment as merged. */
  lemma MavenLauncherTaskOutcome(request: DeploymentRequest, taskId: string, deployer: DeployerProperties, ext: Externals)
    ensures var r := MavenLauncherTask(request, taskId, deployer, ext);
      r.Ok? <==> (GetCpuResource(deployer, request).Ok? &&
                  GetMemoryResource(deployer, request, ext).Ok? &&
                  GetAppEnvironmentVariables(request).Ok?)
    ensures var r := MavenLauncherTask(request, taskId, deployer, ext);
      r.Ok? ==>
        r.value.name == taskId && r.value.driver == "java" &&
        r.value.config == JavaConfig(deployer.artifactDestination + "/" + request.resource.filename,
                                     JvmOptions(deployer, request), Some(LauncherArguments(request))) &&
        r.value.resources.networks == [] &&
        r.value.env == GetAppEnvironmentVariables(request).value + deployer.environmentVariables &&
        r.value.artifacts == [TaskArtifact(request.resource.uri, deployer.artifactDestination, None)]
  {
  }
}
